=== FILE: README.md ===
# pg_index_bm: a Dafny model of the benchmark driver

`bm.py` benchmarks a spatial (GiST) index on PostgreSQL/PostGIS. For every
connection target listed in a JSON configuration it:

- drops and re-imports a working table;
- reconnects;
- runs `times` trials, each of which drops the index `<table>_idx`, times its
  `CREATE INDEX` on the client and parses the server-reported execution time
  out of an `EXPLAIN ANALYZE` of a bounding-box self-join;
- asks for a relation size;
- computes means and medians;
- drops the table.

The first exception ends the run and the whole program.

This project models that driver as pure Dafny functions:

| file | module | what it models |
|---|---|---|
| `results.dfy` | `Results` | `Option`, `Result`, `Outcome` (exceptions become values) |
| `numerals.dfy` | `Numerals` | the captured numeral `\d+(\.\d+)?` and its exact value |
| `pattern.dfy` | `ExecTimePattern` | the compiled pattern `ExecTimeMsRe` and `re.match`, written as a parser |
| `exec_time.dfy` | `ExecTime` | `get_exec_time` over the fetched rows |
| `config.dfy` | `Config` | `check_config` over a decoded JSON value, with Python's `in` and subscripting |
| `database.dfy` | `Database` | statements, replies and the part of the database state the benchmark touches |
| `sessions.dfy` | `Sessions` | issuing statements in order and stopping at the first exception |
| `trial_run.dfy` | `TrialRun` | `run`: the statement plan, the trial loop, the samples, the size query, the cleanup |
| `bench.dfy` | `Bench` | `main`: the configuration check, then the targets in order, stopping at the first failure |

The database a target reaches is a `Server`. It has an initial state and a
reply for the k-th step of a run. A step is a connect, a close or a
statement. A reply is either an exception message or completion with rows
and the client-observed elapsed time. So the clock and the database are
parameters, and each property holds for every possible sequence of replies.

Each operation is checked against an independent description:

- the pattern parser has an independent description of the pattern's
  language (`Decomposes`) and a round trip from a spelled-out hit;
- `get_exec_time` is characterised by the first matching row, both ways;
- `run` is compared with its complete statement plan (`Plan`) and with a
  replay of that plan's effects on the database state, and its success is
  characterised by the replies it receives (`RunUsable`), both ways.

## Model

| member | source | states |
|---|---|---|
| ExecTimePattern.TakeRun | bm.py:14 | the split is a maximal run of the character class: prefix plus rest is the input, the prefix is all in the class, and the rest does not start with it |
| ExecTimePattern.MatchNumber | bm.py:14 | a matched `\d+(\.\d+)?` is a well-formed numeral that the following text cannot extend, and numeral text plus rest rebuilds the input |
| ExecTimePattern.MatchColon | bm.py:14 | a matched `:\s*` plus number is a colon, then whitespace, then a greedy numeral, then the rest |
| ExecTimePattern.MatchTime | bm.py:14 | a matched `time\s*:` part spells "time" up to case, then whitespace, the colon, whitespace and a greedy numeral |
| ExecTimePattern.Parse | bm.py:14 | a match means the line starts with a string of the pattern's language, and the captured number is greedy |
| ExecTimePattern.MatchNumberSpell | bm.py:14 | any numeral followed by text is accepted, and is returned exactly when the following text does not extend it |
| ExecTimePattern.MatchColonSpell | bm.py:14 | colon, whitespace and numeral are accepted, and are returned exactly when the number is greedy |
| ExecTimePattern.MatchTimeSpell | bm.py:14 | "time" in any case, whitespace, colon, whitespace and a numeral are accepted and, when greedy, returned field by field |
| ExecTimePattern.ParseSpell | bm.py:14 | round trip: parsing a spelled well-formed hit followed by non-extending text gives back that hit and that text |
| ExecTimePattern.ParseAccepts | bm.py:14 | every line that starts with a string of the pattern's language is matched |
| ExecTimePattern.ParseStart | bm.py:14 | a spelled hit is matched, and with greedy rest it is recovered exactly |
| ExecTimePattern.ParseIffPatternPrefix | bm.py:14 | `re.match` succeeds if and only if the line starts with a string of the pattern's language |
| ExecTimePattern.ParseAnchored | bm.py:14 | the match is anchored at the start: a line not starting with "e" or "E" never matches |
| ExecTimePattern.ParseExampleMixedCase | bm.py:14 | "Execution Time: 12.50 ms" is matched with the number 12.50 and the rest " ms" |
| ExecTimePattern.ParseExampleUpperCase | bm.py:14 | upper case, a tab between the words and a blank before the colon still match |
| ExecTimePattern.ParseExamplesRejected | bm.py:14 | a Planning Time line and a line with a leading blank do not match |
| Numerals.ValueBounds | bm.py:63 | the value of a captured numeral lies between its integer digits and that plus one |
| Numerals.LeadingZeroIgnored | bm.py:63 | a leading zero digit does not change the value |
| Numerals.TrailingZeroIgnored | bm.py:63 | a trailing zero after the point does not change the value ("2.50" equals "2.5") |
| ExecTime.ExamineRow | bm.py:60-62 | one scan step (`line[0]`, then `re.match`); it has no contract of its own and is characterised by FirstHitReturned, NoMatchIffAllPass and BadRowRaises |
| ExecTime.GetExecTime | bm.py:59-64 | a returned number is a well-formed numeral |
| ExecTime.FirstHitReturned | bm.py:59-64 | when row i is the first matching row, its captured number is returned, whatever follows |
| ExecTime.ReturnedIsFirstHit | bm.py:59-64 | a returned number always comes from the first matching row |
| ExecTime.NoMatchIffAllPass | bm.py:59-64 | the function's own exception is raised if and only if every row is text that does not match |
| ExecTime.BadRowRaises | bm.py:60-61 | an empty row, or a first column that is not text, before any match raises that row's error |
| ExecTime.LaterRowsIgnored | bm.py:60-63 | appending rows after a successful scan does not change the result |
| ExecTime.ExampleAnswer | bm.py:59-64 | a typical plan (scan line, planning time, execution time 12.50) yields 12.50 |
| ExecTime.ExampleValue | bm.py:63 | the numeral "12.50" denotes exactly 12.5 |
| Config.PyIn | bm.py:25 | Python's `in` on a decoded JSON value; no contract of its own, characterised by OccursIff, CheckConfig and MentionedButNotSubscriptable |
| Config.PySubscript | bm.py:27 | Python's `config['connections']`; no contract of its own, characterised by CheckConfig and MentionedButNotSubscriptable |
| Config.CheckConfig | bm.py:24-28 | accepted if and only if it is an object whose "connections" is a list; missing and not-a-list are each raised in exactly their cases, including lists and strings |
| Config.OccursIff | bm.py:25 | Python's substring `in` holds if and only if the needle occurs at some position |
| Config.MentionedButNotSubscriptable | bm.py:25-27 | a list or string that contains "connections" passes the `in` test and then fails on the subscript |
| Database.Apply | bm.py:40-73 | the effect of a completed step: DROP TABLE removes the table and its indexes, the import creates the table, DROP INDEX IF EXISTS removes the index, CREATE INDEX adds it; no contract of its own, characterised by PlanStates, PlanDropsTableFirst and PlanBuildsIndex |
| Sessions.Issue | bm.py:36-84 | one connect, close or `cursor.execute` is appended to the trace; it raises exactly when the reply is an exception, which leaves the database unchanged, and otherwise returns the reply and applies the step's effect |
| Sessions.IssueAllFollows | bm.py:88-100 | the prologue issues its steps in order and stops at the first exception |
| Sessions.IssueAllSucceedsIff | bm.py:88-100 | a step sequence completes if and only if every reply it receives completed |
| Sessions.IssueAllTrace | bm.py:88-100 | a completed sequence issued exactly its steps |
| TrialRun.IndexNameRoundTrip | bm.py:101 | the index name is the table name plus "_idx", and the table name is recovered from it |
| TrialRun.Trial | bm.py:107-113 | one loop iteration; no contract of its own, characterised by TrialFollows, TrialMeasures, TrialSucceedsIff and TrialErrorSite |
| TrialRun.TrialFollows | bm.py:107-113 | one iteration issues drop index, create index and the query in that order and stops at the first exception |
| TrialRun.TrialMeasures | bm.py:66-113 | a completed iteration's create time is the CREATE INDEX reply's elapsed time, and its query time is parsed from the EXPLAIN ANALYZE reply |
| TrialRun.TrialSucceedsIff | bm.py:59-113 | one iteration succeeds if and only if the DROP INDEX and CREATE INDEX replies completed and the EXPLAIN ANALYZE reply completed with rows in which `get_exec_time` finds a time |
| TrialRun.TrialErrorSite | bm.py:59-113 | an iteration raises an exception other than a failing statement only after its EXPLAIN ANALYZE completed, and it is the very error `get_exec_time` raises on that reply's rows |
| TrialRun.TrialsFollow | bm.py:106-113 | n iterations issue n copies of the trial steps and stop at the first exception |
| TrialRun.TrialsSamples | bm.py:104-113 | n completed iterations append one sample per iteration to each list, read from the replies in order |
| TrialRun.TrialsSucceedIff | bm.py:106-113 | when each iteration succeeds exactly on usable replies, n iterations succeed if and only if the replies of every one of them are usable |
| TrialRun.Finish | bm.py:114-127 | the size query, the statistics and the cleanup; no contract of its own, characterised by FinishFollows, FinishReport, FinishSucceedsIff and FinishErrorSite |
| TrialRun.FinishFollows | bm.py:115-127 | after the loop, the size query and the cleanup are issued in order, and a failure never completes the cleanup |
| TrialRun.FinishReport | bm.py:115-127 | the table is dropped only when the size row is usable and there is a sample; the report holds the samples and the first column of the first size row |
| TrialRun.FinishSucceedsIff | bm.py:114-127 | the size query, statistics and cleanup succeed if and only if the size reply completed with a first column in its first row, there is a sample, and the DROP TABLE completed |
| TrialRun.FinishErrorSite | bm.py:114-120 | an exception other than a failing statement comes right after a completed size query: no row means no size row, an empty first row means no column, and otherwise the sample list was empty |
| TrialRun.PlanDropsBeforeCreate | bm.py:107-109 | every CREATE INDEX of the plan builds the benchmark index on the table, directly after a DROP INDEX of it, and that index is absent at that point |
| TrialRun.PlanSizesTable | bm.py:115 | the plan's only size query comes after all trials and is on the table, not the index |
| TrialRun.PlanStates | bm.py:91-127 | along the plan at most the benchmark index exists after the first drop, the table exists after the import, and the full plan leaves neither |
| TrialRun.PlanDropsTableFirst | bm.py:88-91 | whatever the database held, after the connect and the first DROP TABLE there is neither table nor index |
| TrialRun.PlanBuildsIndex | bm.py:107-109 | right after each trial's CREATE INDEX the table is present and the benchmark index is its only index |
| TrialRun.Run | bm.py:86-127 | `run`; no contract of its own, characterised by RunFollowsPlan, RunSucceedsIff, RunErrorSite, RunSamples, RunIndexSize and RunFails |
| TrialRun.RunFollowsPlan | bm.py:86-127 | a run issues a prefix of its plan in order, and a failed run never completed the whole plan |
| TrialRun.RunErrorSite | bm.py:59-120 | an exception other than a failing statement comes right after a completed reply: after an EXPLAIN ANALYZE it is the error `get_exec_time` raises on that reply's rows; after the size query (step 5 plus three per trial) it is no row, no column in the first row, or, only when times is below 1, no samples |
| TrialRun.RunStages | bm.py:86-115 | a successful run got through the prologue and every trial, and then finished |
| TrialRun.LoopSucceedsOnlyIfUsable | bm.py:106-113 | the run's trial loop succeeds only if the replies of each of its trials are usable |
| TrialRun.LoopSucceedsIfUsable | bm.py:106-113 | the run's trial loop succeeds if the replies of each of its trials are usable |
| TrialRun.RunSucceedsIff | bm.py:86-127 | a run succeeds if and only if times is at least 1, the five preparation replies completed, every trial's replies are usable, the size reply has a first column in its first row, and the DROP TABLE completed |
| TrialRun.RunSucceedsWhen | bm.py:86-127 | a run whose replies are all usable succeeds, issues its whole plan, ends with the DROP TABLE of the cleanup, and leaves neither table nor index |
| TrialRun.RunSucceeds | bm.py:86-127 | a successful run had times of at least 1, issued exactly the plan, received only completed replies, and left neither table nor index |
| TrialRun.RunSamples | bm.py:104-113 | a successful run reports times samples per list, sample k being read from reply 6+3k (build) and 7+3k (query) |
| TrialRun.RunIndexSize | bm.py:81-115 | the reported size is the first column of the first row of the size query's reply |
| TrialRun.RunFails | bm.py:86-127 | a failed run issued a prefix of the plan; after the first drop at most the benchmark index exists, and once the import completed the table is left behind |
| TrialRun.RunNonPositiveTimes | bm.py:106-120 | with times of 0 or less the run always fails, issuing at most six steps, and with usable replies it fails on the empty sample list with the table left behind |
| TrialRun.FailedBuildLeavesTable | bm.py:107-109 | a failing first CREATE INDEX is the reported error, nothing after it is issued, and the imported table stays |
| Bench.RunTargets | bm.py:134-135 | the targets run in order; the loop passes if and only if every target ran and succeeded, and otherwise stops at the first failure and reports its position |
| Bench.Main | bm.py:129-140 | a rejected configuration runs nothing; otherwise target k runs against the k-th database in order, main passes if and only if all targets succeed, and on a failing target every earlier run succeeded and no later one was started |
| Bench.MainSuccessCleansUp | bm.py:129-140 | after a clean exit every target received its whole plan with at least one trial, and its database has neither the table nor the index |
| Bench.MainFailureLeavesTable | bm.py:129-140 | the failing target is the last one started, and its table is left behind once its import completed |

## Behaviour of bm.py the model keeps

- `times` is not raised to a minimum of 1 (bm.py:21, 106). With `times` of 0
  or less, `range` is empty and `mean` raises on the empty sample list. This
  happens after the size query and before the cleanup (`RunNonPositiveTimes`).
- The size query is given the table name, not the index name (bm.py:115).
  The reported "index size" is the size of the table (`PlanSizesTable`).
- Nothing is cleaned up when an exception is raised (`RunFails`,
  `FailedBuildLeavesTable`, `MainFailureLeavesTable`). Once a run's import
  has completed, a later exception leaves the table in the database.
- Errors are plain `Exception`s or library exceptions. The model names the
  error cases (`ConfigError`, `ParseError`, `RunError`) so they can be told
  apart.
- A configuration that is not a JSON object is not always rejected as
  missing the field. A list or string that contains "connections" gets
  through `in` and then fails on the subscript with a TypeError. A number,
  boolean or null fails `in` with a TypeError.
- The second connection of a run is never closed. Closing is not part of
  the modelled state.

## Left out

- SQL text, `sql.Identifier` quoting and psycopg2 itself: statements are abstract `Stmt` values, and the driver is the `Server` reply function.
- Connection parameters: `main` maps the k-th target to the database `world(k)`. Two entries of `connections` may reach the same database, and the later run then starts from whatever the earlier one left; the model covers this only because `world(k).initial` may be any state, and it does not relate the initial state of one target to the final state of another.
- File reading and `json.load` (bm.py:30-34): the configuration arrives already decoded as a `Json` value.
- Argument parsing (bm.py:16-22): `--times` given on the command line stays a string, and `range` would raise a TypeError on it. The model takes `times` as an integer, which is what the default 10 is.
- `datetime` timing: the CREATE INDEX duration is the reply's `elapsedMs`, an opaque real number.
- `float(...)` conversion: the captured numeral keeps its exact rational value; binary floating point and its rounding are not modelled.
- `mean` and `median` values and the printed report lines: the model reports the sample lists they are taken over, and only the empty-list exception of `mean` is modelled.
- `create_table` (bm.py:45-48): its only call is commented out.
- The import script's contents: a completed script is taken to leave the working table present with its indexes unchanged, and a failed one to change nothing.
- Closing connections and cursors: connect and close are steps in the trace with no effect on the modelled state.
- `\d` and IGNORECASE on non-ASCII characters: only ASCII digits and ASCII case folding are modelled. `\s` is the full `str.isspace` set.
- `print(e)` and the re-raise in `main` (bm.py:138-140): the model returns the error as `MainError`, and printing is I/O. `KeyboardInterrupt` and other non-`Exception` base exceptions are not modelled.

=== FILE: bench.dfy ===
/** `main`: check the configuration, then run the benchmark against every
    connection target in order. The first exception ends the whole program;
    later targets are never reached and nothing is cleaned up. */
module Bench {
  import opened Results
  import opened Database
  import opened Config
  import opened Sessions
  import opened TrialRun

  /** Why `main` stopped: the configuration was rejected, or the run against
      the target at this position of the list raised. */
  datatype MainError = BadConfig(reason: ConfigError) | TargetFailed(target: nat, error: RunError)

  /** The runs that were started, in target order, and how `main` ended. */
  datatype MainResult = MainResult(runs: seq<Progress<Report>>, outcome: Outcome<MainError>)

  /** The loop over targets `done`, `done + 1`, … `count - 1`; `attempt(i)`
      is the run against the i-th target. */
  function RunTargets(count: nat, attempt: nat -> Progress<Report>, done: nat): (r: MainResult)
    ensures done + |r.runs| <= count || (done > count && r.runs == [])
    ensures forall k :: 0 <= k < |r.runs| ==> r.runs[k] == attempt(done + k)
    ensures r.outcome == Pass <==>
            (done + |r.runs| >= count && forall k :: 0 <= k < |r.runs| ==> r.runs[k].result.Success?)
    ensures r.outcome.Fail? ==>
              && |r.runs| > 0
              && (forall k :: 0 <= k < |r.runs| - 1 ==> r.runs[k].result.Success?)
              && r.runs[|r.runs| - 1].result.Failure?
              && r.outcome.error == TargetFailed(done + |r.runs| - 1, r.runs[|r.runs| - 1].result.error)
    decreases count - done
  {
    if done >= count then MainResult([], Pass)
    else
      var p := attempt(done);
      if p.result.Failure? then
        assert [p][0] == p;
        MainResult([p], Fail(TargetFailed(done, p.result.error)))
      else
        var rest := RunTargets(count, attempt, done + 1);
        var runs := [p] + rest.runs;
        assert forall k :: 0 < k < |runs| ==> runs[k] == rest.runs[k - 1];
        assert rest.outcome.Fail? ==> !runs[|runs| - 1].result.Success?;
        assert (forall k :: 0 <= k < |rest.runs| ==> rest.runs[k].result.Success?) ==>
               (forall k :: 0 <= k < |runs| ==> runs[k].result.Success?);
        MainResult(runs, rest.outcome)
  }

  /** `main` on the parsed configuration file: a rejected configuration
      starts no run; otherwise the targets of the "connections" array are run
      in order until one raises. */
  function Main(config: Json, table: string, script: string, times: int, world: nat -> Server): (r: MainResult)
    ensures CheckConfig(config).Fail? ==> r.runs == [] && r.outcome == Fail(BadConfig(CheckConfig(config).error))
    ensures CheckConfig(config) == Pass ==>
              && |r.runs| <= |Connections(config)|
              && (forall k :: 0 <= k < |r.runs| ==> r.runs[k] == Run(world(k), table, script, times))
              && (r.outcome == Pass <==>
                    |r.runs| == |Connections(config)| && forall k :: 0 <= k < |r.runs| ==> r.runs[k].result.Success?)
    ensures r.outcome.Fail? && r.outcome.error.TargetFailed? ==>
              && CheckConfig(config) == Pass
              && r.outcome.error.target == |r.runs| - 1
              && (forall k :: 0 <= k < |r.runs| - 1 ==> r.runs[k].result.Success?)
              && r.runs[|r.runs| - 1].result == Failure(r.outcome.error.error)
  {
    match CheckConfig(config)
    case Fail(e) => MainResult([], Fail(BadConfig(e)))
    case Pass => RunTargets(|Connections(config)|, (k: nat) => Run(world(k), table, script, times), 0)
  }

  /** After a clean exit every target received its whole plan, with at
      least one trial, and its database ends with neither the table nor the
      benchmark's index. An empty target list exits cleanly whatever `times`
      is. */
  lemma MainSuccessCleansUp(config: Json, table: string, script: string, times: int, world: nat -> Server)
    ensures var r := Main(config, table, script, times, world);
      r.outcome == Pass ==>
        && (r.runs != [] ==> times >= 1)
        && forall k :: 0 <= k < |r.runs| ==>
             && r.runs[k].session.trace == Plan(table, script, TrialCount(times))
             && r.runs[k].session.db == DbState(false, {})
  {
    var r := Main(config, table, script, times, world);
    if r.outcome == Pass {
      assert CheckConfig(config) == Pass;
      forall k | 0 <= k < |r.runs|
        ensures r.runs[k].session.trace == Plan(table, script, TrialCount(times))
        ensures r.runs[k].session.db == DbState(false, {})
      {
        assert r.runs[k] == Run(world(k), table, script, times) && r.runs[k].result.Success?;
        RunSucceeds(world(k), table, script, times);
      }
      if |r.runs| > 0 {
        assert r.runs[0] == Run(world(0), table, script, times) && r.runs[0].result.Success?;
        RunSucceeds(world(0), table, script, times);
      }
    }
  }

  /** When a target's run raises after its import completed, the working
      table is left in that target's database, and the targets after it are
      never connected to. */
  lemma MainFailureLeavesTable(config: Json, table: string, script: string, times: int, world: nat -> Server)
    requires Main(config, table, script, times, world).outcome.Fail?
    ensures var r := Main(config, table, script, times, world);
      r.outcome.error.TargetFailed? ==>
        && var i := r.outcome.error.target;
        && |r.runs| == i + 1
        && (|r.runs[i].session.trace| > 3 ==> r.runs[i].session.db.tablePresent)
  {
    var r := Main(config, table, script, times, world);
    if r.outcome.error.TargetFailed? {
      var i := r.outcome.error.target;
      RunFails(world(i), table, script, times);
    }
  }
}

=== FILE: config.dfy ===
/** `check_config`: the decoded configuration must hold a `connections`
    list. The operators are Python's, so a configuration that is not a JSON
    object is handled the way `in` and subscripting handle lists, strings
    and scalars. */
module Config {
  import opened Results

  /** A value as `json.load` returns it (an object keeps the last value of a
      repeated key). */
  datatype Json =
    | JNull
    | JBool(b: bool)
    | JNumber(n: real)
    | JString(s: string)
    | JArray(items: seq<Json>)
    | JObject(fields: map<string, Json>)

  /** The two exceptions `check_config` raises itself, and the TypeError
      Python raises when the configuration does not support the operators. */
  datatype ConfigError = MissingConnections | ConnectionsNotArray | TypeError

  const ConnectionsKey := "connections"

  /** Python's `needle in hay` on two strings. */
  function Occurs(needle: string, hay: string): bool
    decreases |hay|
  {
    if |hay| < |needle| then false
    else hay[..|needle|] == needle || Occurs(needle, hay[1..])
  }

  predicate OccursAt(needle: string, hay: string, i: int) {
    0 <= i <= |hay| - |needle| && hay[i..i + |needle|] == needle
  }

  /** A slice of the tail is the slice one position further on. */
  lemma TailSlice(s: string, i: nat, n: nat)
    requires i + 1 + n <= |s|
    ensures s[1..][i..i + n] == s[i + 1..i + 1 + n]
  {
    var a, b := s[1..][i..i + n], s[i + 1..i + 1 + n];
    forall j | 0 <= j < n ensures a[j] == b[j] {
      assert a[j] == s[i + 1 + j];
    }
  }

  /** `needle in hay` holds exactly when `needle` occurs at some position. */
  lemma {:induction false} OccursIff(needle: string, hay: string)
    ensures Occurs(needle, hay) <==> exists i :: OccursAt(needle, hay, i)
    decreases |hay|
  {
    var n := |needle|;
    if |hay| >= n {
      if hay[..n] == needle {
        assert OccursAt(needle, hay, 0);
      } else {
        OccursIff(needle, hay[1..]);
        if Occurs(needle, hay[1..]) {
          var i :| OccursAt(needle, hay[1..], i);
          TailSlice(hay, i, n);
          assert OccursAt(needle, hay, i + 1);
        }
        if exists i :: OccursAt(needle, hay, i) {
          var i :| OccursAt(needle, hay, i);
          assert hay[0..n] == hay[..n];
          assert i > 0;
          TailSlice(hay, i - 1, n);
          assert OccursAt(needle, hay[1..], i - 1);
        }
      }
    }
  }

  /** Python's `key in container`. */
  function PyIn(key: string, container: Json): Result<bool, ConfigError> {
    match container
    case JObject(fields) => Success(key in fields)
    case JArray(items) => Success(JString(key) in items)
    case JString(s) => Success(Occurs(key, s))
    case _ => Failure(TypeError)
  }

  /** Python's `container[key]` with a string key. */
  function PySubscript(container: Json, key: string): Result<Json, ConfigError>
    requires PyIn(key, container) == Success(true)
  {
    match container
    case JObject(fields) => Success(fields[key])
    case _ => Failure(TypeError)
  }

  /** Accepts the configuration, or raises: first when `connections` is
      absent, then when it is not a list. The configuration itself is not
      changed (the function returns nothing). */
  function CheckConfig(config: Json): (r: Outcome<ConfigError>)
    ensures r == Pass <==>
            config.JObject? && ConnectionsKey in config.fields && config.fields[ConnectionsKey].JArray?
    ensures r == Fail(MissingConnections) <==>
            || (config.JObject? && ConnectionsKey !in config.fields)
            || (config.JArray? && JString(ConnectionsKey) !in config.items)
            || (config.JString? && !Occurs(ConnectionsKey, config.s))
    ensures r == Fail(ConnectionsNotArray) <==>
            config.JObject? && ConnectionsKey in config.fields && !config.fields[ConnectionsKey].JArray?
  {
    match PyIn(ConnectionsKey, config)
    case Failure(e) => Fail(e)
    case Success(false) => Fail(MissingConnections)
    case Success(true) =>
      match PySubscript(config, ConnectionsKey)
      case Failure(e) => Fail(e)
      case Success(v) => if v.JArray? then Pass else Fail(ConnectionsNotArray)
  }

  /** The target list of an accepted configuration. */
  function Connections(config: Json): seq<Json>
    requires CheckConfig(config) == Pass
  {
    config.fields[ConnectionsKey].items
  }

  /** A list or a string that mentions "connections" is not rejected as
      missing the field; Python fails on the subscript instead. */
  lemma MentionedButNotSubscriptable(config: Json)
    requires config.JArray? || config.JString?
    requires PyIn(ConnectionsKey, config) == Success(true)
    ensures CheckConfig(config) == Fail(TypeError)
  {
  }
}

=== FILE: database.dfy ===
/** The database as bm.py sees it through psycopg2: the statements it sends,
    what comes back, and the part of the database's state the benchmark
    touches (the working table and the indexes on it). */
module Database {

  /** One column value of a result row. */
  datatype Cell = Text(text: string) | Int(value: int) | Null

  type Row = seq<Cell>

  /** The statement shapes the benchmark issues. */
  datatype Stmt =
    | DropTable(table: string)                   // DROP TABLE IF EXISTS <table>
    | ImportScript(path: string)                 // the data file's contents, verbatim
    | DropIndex(index: string)                   // DROP INDEX IF EXISTS <index>
    | CreateIndex(index: string, table: string)  // CREATE INDEX <index> ON <table> USING GIST(geom)
    | ExplainJoin(table: string)                 // EXPLAIN ANALYZE of the bounding-box self-join count
    | RelationSize(relation: string)             // SELECT pg_relation_size(<relation>)

  /** Opening a connection (with its cursor), closing it, or executing a statement. */
  datatype Step = Connect | Close | Sql(stmt: Stmt)

  /** What the database (or the driver) answers to one step: an exception, or
      completion with the client-observed elapsed time and the fetched rows. */
  datatype Reply = Failed(message: string) | Completed(elapsedMs: real, rows: seq<Row>)

  datatype DbState = DbState(tablePresent: bool, indexes: set<string>)

  /** The database one connection target reaches: its state before the run,
      and its reply to the k-th step of the run. */
  datatype Server = Server(initial: DbState, reply: nat -> Reply)

  /** A run in progress: the database state so far and every step issued. */
  datatype Session = Session(db: DbState, trace: seq<Step>)

  /** The effect of a step that completed. Dropping the table drops its
      indexes; the import script is taken to (re)create the working table and
      to leave the set of indexes as it was. */
  function Apply(db: DbState, step: Step): DbState {
    match step
    case Connect => db
    case Close => db
    case Sql(stmt) =>
      match stmt
      case DropTable(_) => DbState(false, {})
      case ImportScript(_) => DbState(true, db.indexes)
      case DropIndex(index) => db.(indexes := db.indexes - {index})
      case CreateIndex(index, _) => db.(indexes := db.indexes + {index})
      case ExplainJoin(_) => db
      case RelationSize(_) => db
  }

  /** The state after a sequence of steps that all completed. */
  function Replay(db: DbState, steps: seq<Step>): DbState
    decreases |steps|
  {
    if steps == [] then db else Replay(Apply(db, steps[0]), steps[1..])
  }

  lemma {:induction false} ReplayAppend(db: DbState, a: seq<Step>, b: seq<Step>)
    decreases |a|
    ensures Replay(db, a + b) == Replay(Replay(db, a), b)
  {
    if a != [] {
      assert (a + b)[0] == a[0];
      assert (a + b)[1..] == a[1..] + b;
      ReplayAppend(Apply(db, a[0]), a[1..], b);
    } else {
      assert a + b == b;
    }
  }

  /** Replaying one more step applies it to the state reached so far. */
  lemma ReplaySnoc(db: DbState, a: seq<Step>, step: Step)
    ensures Replay(db, a + [step]) == Apply(Replay(db, a), step)
  {
    ReplayAppend(db, a, [step]);
    assert [step][1..] == [];
  }
}

=== FILE: exec_time.dfy ===
/** `get_exec_time`: the first row of EXPLAIN ANALYZE output whose first
    column matches the execution-time pattern gives the query's
    server-measured execution time. */
module ExecTime {
  import opened Results
  import opened Numerals
  import opened ExecTimePattern
  import opened Database

  /** Why no execution time came out: no row matched (the function's own
      exception), or a row had no first column (IndexError) or a first
      column that is not text (TypeError from `re.match`). */
  datatype ParseError = NoExecutionTime | EmptyRow | NotText

  /** One loop iteration: `re.match` on the row's first column. */
  function ExamineRow(row: Row): Result<Option<Numeral>, ParseError> {
    if row == [] then Failure(EmptyRow)
    else if !row[0].Text? then Failure(NotText)
    else
      match Parse(row[0].text)
      case None => Success(None)
      case Some(m) => Success(Some(m.0.number))
  }

  /** The row is examined and the scan moves on to the next one. */
  predicate Passes(row: Row) {
    ExamineRow(row) == Success(None)
  }

  /** The row's first column is text starting with an execution-time line. */
  predicate Hits(row: Row) {
    row != [] && row[0].Text? && Parse(row[0].text).Some?
  }

  /** The number the pattern captures in a row that hits. */
  function HitNumber(row: Row): Numeral
    requires Hits(row)
  {
    Parse(row[0].text).value.0.number
  }

  /** Row `i` hits and every earlier row passes. */
  predicate FirstHitAt(answer: seq<Row>, i: int) {
    && 0 <= i < |answer|
    && (forall j :: 0 <= j < i ==> Passes(answer[j]))
    && Hits(answer[i])
  }

  /** Scans the rows in order and returns the number from the first matching
      row, raising when the scan ends without one. */
  function GetExecTime(answer: seq<Row>): (r: Result<Numeral, ParseError>)
    ensures r.Success? ==> WellFormed(r.value)
    decreases |answer|
  {
    if answer == [] then Failure(NoExecutionTime)
    else
      match ExamineRow(answer[0])
      case Failure(e) => Failure(e)
      case Success(None) => GetExecTime(answer[1..])
      case Success(Some(n)) => Success(n)
  }

  /** The number of the first matching row is returned; rows after it are
      never looked at. */
  lemma {:induction false} FirstHitReturned(answer: seq<Row>, i: int)
    requires FirstHitAt(answer, i)
    ensures GetExecTime(answer) == Success(HitNumber(answer[i]))
  {
    if i > 0 {
      assert Passes(answer[0]);
      assert FirstHitAt(answer[1..], i - 1) by {
        forall j | 0 <= j < i - 1 ensures Passes(answer[1..][j]) {
          assert answer[1..][j] == answer[j + 1];
        }
      }
      FirstHitReturned(answer[1..], i - 1);
    }
  }

  /** Conversely, a returned number always comes from the first matching row. */
  lemma {:induction false} ReturnedIsFirstHit(answer: seq<Row>)
    requires GetExecTime(answer).Success?
    ensures exists i :: FirstHitAt(answer, i) && GetExecTime(answer).value == HitNumber(answer[i])
  {
    if ExamineRow(answer[0]) == Success(None) {
      assert GetExecTime(answer) == GetExecTime(answer[1..]);
      ReturnedIsFirstHit(answer[1..]);
      var i :| FirstHitAt(answer[1..], i) && GetExecTime(answer[1..]).value == HitNumber(answer[1..][i]);
      assert answer[i + 1] == answer[1..][i];
      assert FirstHitAt(answer, i + 1) by {
        forall j | 0 <= j < i + 1 ensures Passes(answer[j]) {
          if j > 0 {
            assert answer[j] == answer[1..][j - 1];
          }
        }
      }
      assert GetExecTime(answer).value == HitNumber(answer[i + 1]);
    } else {
      assert FirstHitAt(answer, 0);
    }
  }

  /** The scan fails with its own error exactly when every row is examined
      and none matches; in particular on an empty answer. */
  lemma {:induction false} NoMatchIffAllPass(answer: seq<Row>)
    ensures GetExecTime(answer) == Failure(NoExecutionTime) <==>
            forall j :: 0 <= j < |answer| ==> Passes(answer[j])
  {
    if answer != [] {
      NoMatchIffAllPass(answer[1..]);
      if forall j :: 0 <= j < |answer| ==> Passes(answer[j]) {
        assert forall j :: 0 <= j < |answer[1..]| ==> Passes(answer[1..][j]) by {
          forall j | 0 <= j < |answer[1..]| ensures Passes(answer[1..][j]) {
            assert answer[1..][j] == answer[j + 1];
          }
        }
      } else if Passes(answer[0]) {
        var j :| 0 <= j < |answer| && !Passes(answer[j]);
        assert !Passes(answer[1..][j - 1]);
      }
    }
  }

  /** A row without a first column, or whose first column is not text, ends
      the scan with an error unless an earlier row matched. */
  lemma {:induction false} BadRowRaises(answer: seq<Row>, i: int)
    requires 0 <= i < |answer|
    requires forall j :: 0 <= j < i ==> Passes(answer[j])
    requires answer[i] == [] || !answer[i][0].Text?
    ensures GetExecTime(answer) == Failure(if answer[i] == [] then EmptyRow else NotText)
  {
    if i > 0 {
      assert Passes(answer[0]);
      assert forall j :: 0 <= j < i - 1 ==> Passes(answer[1..][j]) by {
        forall j | 0 <= j < i - 1 ensures Passes(answer[1..][j]) {
          assert answer[1..][j] == answer[j + 1];
        }
      }
      BadRowRaises(answer[1..], i - 1);
    }
  }

  /** Appending rows after a successful scan does not change the result. */
  lemma LaterRowsIgnored(answer: seq<Row>, more: seq<Row>)
    requires GetExecTime(answer).Success?
    ensures GetExecTime(answer + more) == GetExecTime(answer)
  {
    ReturnedIsFirstHit(answer);
    var i :| FirstHitAt(answer, i) && GetExecTime(answer).value == HitNumber(answer[i]);
    assert FirstHitAt(answer + more, i) by {
      forall j | 0 <= j <= i ensures (answer + more)[j] == answer[j] { }
    }
    FirstHitReturned(answer + more, i);
  }

  /** A plan whose first execution-time line reads 12.50 ms yields that
      numeral, whatever rows follow it. */
  lemma ExampleAnswer(answer: seq<Row>)
    requires |answer| >= 3
    requires answer[0] == [Text("Seq Scan on roads_rdr a")]
    requires answer[1] == [Text("Planning Time: 0.2 ms")]
    requires answer[2] == [Text("Execution Time: 12.50 ms")]
    ensures GetExecTime(answer) == Success(Numeral("12", "50"))
  {
    assert Passes(answer[0]) by {
      ParseAnchored(answer[0][0].text);
    }
    assert Passes(answer[1]) by {
      ParseAnchored(answer[1][0].text);
    }
    assert Hits(answer[2]) && HitNumber(answer[2]) == Numeral("12", "50") by {
      ParseExampleMixedCase();
    }
    forall j | 0 <= j < 2 ensures Passes(answer[j]) {
      assert j == 0 || j == 1;
    }
    FirstHitReturned(answer, 2);
  }

  /** The captured "12.50" denotes 12.5 milliseconds. */
  lemma ExampleValue()
    ensures WellFormed(Numeral("12", "50")) && Value(Numeral("12", "50")) == 12.5
  {
    assert DigitsValue("12") == 12 by {
      assert "12"[..1] == "1";
    }
    assert DigitsValue("50") == 50 by {
      assert "50"[..1] == "5";
    }
    assert Pow10(2) == 100;
  }
}

=== FILE: numerals.dfy ===
/** The decimal numeral captured by the execution-time pattern (`\d+(\.\d+)?`)
    and the exact number it denotes. Python turns the captured text into a
    binary float with `float(...)`; the model keeps the exact rational value. */
module Numerals {

  predicate IsDigit(c: char) {
    '0' <= c <= '9'
  }

  predicate AllDigits(s: string) {
    forall i :: 0 <= i < |s| ==> IsDigit(s[i])
  }

  function DigitValue(c: char): nat
    requires IsDigit(c)
  {
    c as int - '0' as int
  }

  /** The number a digit string denotes in base ten (most significant digit first). */
  function DigitsValue(s: string): nat
    requires AllDigits(s)
    decreases |s|
  {
    if s == [] then 0 else 10 * DigitsValue(s[..|s| - 1]) + DigitValue(s[|s| - 1])
  }

  function Pow10(k: nat): (r: nat)
    ensures r > 0
  {
    if k == 0 then 1 else 10 * Pow10(k - 1)
  }

  /** `whole` is the integer part, `fraction` the digits after the point
      (empty when the numeral has no point). */
  datatype Numeral = Numeral(whole: string, fraction: string)

  predicate WellFormed(n: Numeral) {
    |n.whole| > 0 && AllDigits(n.whole) && AllDigits(n.fraction)
  }

  /** The exact value of the numeral. */
  function Value(n: Numeral): real
    requires WellFormed(n)
  {
    DigitsValue(n.whole) as real + DigitsValue(n.fraction) as real / Pow10(|n.fraction|) as real
  }

  /** k fraction digits denote less than one whole unit. */
  lemma {:induction false} FractionBelowOne(f: string)
    requires AllDigits(f)
    ensures DigitsValue(f) < Pow10(|f|)
  {
    if f != [] {
      FractionBelowOne(f[..|f| - 1]);
    }
  }

  /** The integer part of the value is exactly the whole digits: the fraction
      adds something in [0, 1). */
  lemma ValueBounds(n: Numeral)
    requires WellFormed(n)
    ensures DigitsValue(n.whole) as real <= Value(n) < DigitsValue(n.whole) as real + 1.0
  {
    FractionBelowOne(n.fraction);
    QuotientBelowOne(DigitsValue(n.fraction) as real, Pow10(|n.fraction|) as real);
  }

  lemma QuotientBelowOne(a: real, b: real)
    requires 0.0 <= a < b
    ensures 0.0 <= a / b < 1.0
  {
    assert a / b * b == a;
  }

  /** A leading zero digit does not change the value denoted. */
  lemma {:induction false} LeadingZeroIgnored(s: string)
    requires AllDigits(s)
    ensures AllDigits("0" + s) && DigitsValue("0" + s) == DigitsValue(s)
  {
    if s != [] {
      var init := s[..|s| - 1];
      assert ("0" + s)[..|s|] == "0" + init;
      LeadingZeroIgnored(init);
    } else {
      assert ("0" + s)[..0] == [];
    }
  }

  /** A trailing zero after the point does not change the value: "2.50" and
      "2.5" denote the same number. */
  lemma TrailingZeroIgnored(whole: string, fraction: string)
    requires WellFormed(Numeral(whole, fraction))
    ensures WellFormed(Numeral(whole, fraction + "0"))
    ensures Value(Numeral(whole, fraction + "0")) == Value(Numeral(whole, fraction))
  {
    var g := fraction + "0";
    assert g[..|g| - 1] == fraction;
    assert DigitsValue(g) as real == 10.0 * DigitsValue(fraction) as real;
    assert Pow10(|g|) as real == 10.0 * Pow10(|fraction|) as real;
    ScaledQuotient(DigitsValue(fraction) as real, Pow10(|fraction|) as real);
  }

  lemma ScaledQuotient(a: real, b: real)
    requires b > 0.0
    ensures (10.0 * a) / (10.0 * b) == a / b
  {
  }
}

=== FILE: pattern.dfy ===
/** The execution-time regular expression of bm.py, compiled with IGNORECASE
    and applied with `re.match` (anchored at the start of the line, not at
    its end):

        execution \s+ time \s* : \s* ( \d+ ( \. \d+ )? )

    `Parse` is a deterministic scanner for it, built in layers that follow the
    pattern from right to left. `Hit` and `Spell` describe the language of the
    pattern independently, and the lemmas below connect the two. */
module ExecTimePattern {
  import opened Results
  import opened Numerals

  /** The characters Python's `\s` accepts in a str pattern (str.isspace). */
  predicate IsSpace(c: char) {
    || c == ' '
    || '\t' <= c <= '\r'
    || '\U{1c}' <= c <= '\U{1f}'
    || c == '\U{85}' || c == '\U{a0}' || c == '\U{1680}'
    || '\U{2000}' <= c <= '\U{200a}'
    || c == '\U{2028}' || c == '\U{2029}' || c == '\U{202f}' || c == '\U{205f}'
    || c == '\U{3000}'
  }

  function Lower(c: char): char {
    if 'A' <= c <= 'Z' then (c as int + 32) as char else c
  }

  /** `s` spells the lower-case keyword `kw` up to letter case. */
  predicate SameIgnoringCase(s: string, kw: string) {
    |s| == |kw| && forall i :: 0 <= i < |s| ==> Lower(s[i]) == kw[i]
  }

  datatype CharClass = Space | Digit

  predicate InClass(c: char, k: CharClass) {
    match k
    case Space => IsSpace(c)
    case Digit => IsDigit(c)
  }

  predicate AllIn(s: string, k: CharClass) {
    forall i :: 0 <= i < |s| ==> InClass(s[i], k)
  }

  /** The longest prefix of `s` drawn from class `k`, and what follows it
      (the greedy behaviour of `\s*`, `\s+` and `\d+`). */
  function TakeRun(s: string, k: CharClass): (r: (string, string))
    ensures r.0 + r.1 == s
    ensures AllIn(r.0, k)
    ensures r.1 == [] || !InClass(r.1[0], k)
    decreases |s|
  {
    if s != [] && InClass(s[0], k) then
      var rest := TakeRun(s[1..], k);
      var run := [s[0]] + rest.0;
      assert forall i :: 0 < i < |run| ==> run[i] == rest.0[i - 1];
      assert s == [s[0]] + s[1..];
      (run, rest.1)
    else
      ([], s)
  }

  /** A maximal run is found exactly where it ends. */
  lemma {:induction false} TakeRunSplits(w: string, t: string, k: CharClass)
    requires AllIn(w, k)
    requires t == [] || !InClass(t[0], k)
    ensures TakeRun(w + t, k) == (w, t)
  {
    if w == [] {
      assert w + t == t;
    } else {
      assert (w + t)[0] == w[0];
      assert InClass(w[0], k);
      assert (w + t)[1..] == w[1..] + t;
      assert AllIn(w[1..], k) by {
        forall i | 0 <= i < |w[1..]| ensures InClass(w[1..][i], k) {
          assert w[1..][i] == w[i + 1];
        }
      }
      TakeRunSplits(w[1..], t, k);
      assert TakeRun(w + t, k) == ([w[0]] + TakeRun(w[1..] + t, k).0, TakeRun(w[1..] + t, k).1);
      assert [w[0]] + w[1..] == w;
    }
  }

  /** The captured number cannot be extended by what follows it: `\d+` and the
      optional `(\.\d+)?` are greedy. */
  predicate Greedy(n: Numeral, rest: string) {
    && (rest == [] || !IsDigit(rest[0]))
    && (n.fraction == [] ==> !(|rest| >= 2 && rest[0] == '.' && IsDigit(rest[1])))
  }

  /** The numeral's text followed by `rest`. */
  function NumberThen(n: Numeral, rest: string): string {
    n.whole + (if n.fraction == [] then rest else "." + (n.fraction + rest))
  }

  /** `\d+(\.\d+)?` at the start of `s`, as captured by group 1. */
  function MatchNumber(s: string): (r: Option<(Numeral, string)>)
    ensures r.Some? ==> WellFormed(r.value.0) && Greedy(r.value.0, r.value.1)
    ensures r.Some? ==> s == NumberThen(r.value.0, r.value.1)
  {
    var (whole, t) := TakeRun(s, Digit);
    if whole == [] then None
    else if |t| >= 2 && t[0] == '.' && IsDigit(t[1]) then
      var (fraction, rest) := TakeRun(t[1..], Digit);
      assert t == "." + (fraction + rest);
      Some((Numeral(whole, fraction), rest))
    else
      Some((Numeral(whole, []), t))
  }

  /** `:\s*` and the number. */
  function MatchColon(s: string): (r: Option<(string, Numeral, string)>)
    ensures r.Some? ==> AllIn(r.value.0, Space) && WellFormed(r.value.1) && Greedy(r.value.1, r.value.2)
    ensures r.Some? ==> s == ":" + (r.value.0 + NumberThen(r.value.1, r.value.2))
  {
    if s == [] || s[0] != ':' then None
    else
      var (after, t) := TakeRun(s[1..], Space);
      match MatchNumber(t)
      case None => None
      case Some((n, rest)) =>
        assert s == ":" + s[1..];
        Some((after, n, rest))
  }

  /** `time\s*` and what follows it. */
  function MatchTime(s: string): (r: Option<(string, string, string, Numeral, string)>)
    ensures r.Some? ==> var (time, before, after, n, rest) := r.value;
      && SameIgnoringCase(time, "time") && AllIn(before, Space) && AllIn(after, Space)
      && WellFormed(n) && Greedy(n, rest)
      && s == time + (before + (":" + (after + NumberThen(n, rest))))
  {
    if |s| < 4 || !SameIgnoringCase(s[..4], "time") then None
    else
      var (before, t) := TakeRun(s[4..], Space);
      match MatchColon(t)
      case None => None
      case Some((after, n, rest)) =>
        KeywordThen(s, 4, before, t);
        Some((s[..4], before, after, n, rest))
  }

  /** A line cut after its first `k` characters, the remainder split in two. */
  lemma KeywordThen(s: string, k: nat, before: string, t: string)
    requires k <= |s| && s[k..] == before + t
    ensures s == s[..k] + (before + t)
  {
    assert s == s[..k] + s[k..];
  }

  /** One way a line can start with text the pattern matches: each field holds
      the characters of the line that the corresponding part of the pattern
      consumes. */
  datatype Hit = Hit(execution: string, gap: string, time: string,
                     beforeColon: string, afterColon: string, number: Numeral)

  predicate WellFormedHit(h: Hit) {
    && SameIgnoringCase(h.execution, "execution")
    && |h.gap| > 0 && AllIn(h.gap, Space)
    && SameIgnoringCase(h.time, "time")
    && AllIn(h.beforeColon, Space)
    && AllIn(h.afterColon, Space)
    && WellFormed(h.number)
  }

  /** The text a hit stands for, followed by `rest`. */
  function Spell(h: Hit, rest: string): string {
    h.execution + (h.gap + (h.time + (h.beforeColon + (":" + (h.afterColon + NumberThen(h.number, rest))))))
  }

  /** `line` starts with a string of the pattern's language, described by `h`. */
  predicate Decomposes(line: string, h: Hit, rest: string) {
    WellFormedHit(h) && line == Spell(h, rest)
  }

  /** `re.match` of the pattern on `line`: the matched prefix and the rest of
      the line, or None when the line does not start with a match. */
  function Parse(line: string): (r: Option<(Hit, string)>)
    ensures r.Some? ==> Decomposes(line, r.value.0, r.value.1)
    ensures r.Some? ==> Greedy(r.value.0.number, r.value.1)
  {
    if |line| < 9 || !SameIgnoringCase(line[..9], "execution") then None
    else
      var (gap, t) := TakeRun(line[9..], Space);
      if gap == [] then None
      else
        var m := MatchTime(t);
        if m.None? then None
        else
          var (time, before, after, n, rest) := m.value;
          var h := Hit(line[..9], gap, time, before, after, n);
          KeywordThen(line, 9, gap, t);
          assert Decomposes(line, h, rest);
          Some((h, rest))
  }

  /** Round trip of the number layer; without greediness the layer still
      matches (a longer number). */
  lemma MatchNumberSpell(n: Numeral, rest: string)
    requires WellFormed(n)
    ensures MatchNumber(NumberThen(n, rest)).Some?
    ensures Greedy(n, rest) ==> MatchNumber(NumberThen(n, rest)) == Some((n, rest))
  {
    var s := NumberThen(n, rest);
    assert s[0] == n.whole[0];
    assert TakeRun(s, Digit).0 != [];
    if Greedy(n, rest) {
      if n.fraction == [] {
        TakeRunSplits(n.whole, rest, Digit);
      } else {
        var t := "." + (n.fraction + rest);
        TakeRunSplits(n.whole, t, Digit);
        assert t[1..] == n.fraction + rest;
        TakeRunSplits(n.fraction, rest, Digit);
      }
    }
  }

  lemma MatchColonSpell(after: string, n: Numeral, rest: string)
    requires AllIn(after, Space) && WellFormed(n)
    ensures MatchColon(":" + (after + NumberThen(n, rest))).Some?
    ensures Greedy(n, rest) ==> MatchColon(":" + (after + NumberThen(n, rest))) == Some((after, n, rest))
  {
    var num := NumberThen(n, rest);
    var s := ":" + (after + num);
    assert s[1..] == after + num;
    assert num[0] == n.whole[0];
    TakeRunSplits(after, num, Space);
    MatchNumberSpell(n, rest);
  }

  lemma MatchTimeSpell(time: string, before: string, after: string, n: Numeral, rest: string)
    requires SameIgnoringCase(time, "time") && AllIn(before, Space) && AllIn(after, Space) && WellFormed(n)
    ensures var s := time + (before + (":" + (after + NumberThen(n, rest))));
      && MatchTime(s).Some?
      && (Greedy(n, rest) ==> MatchTime(s) == Some((time, before, after, n, rest)))
  {
    var colon := ":" + (after + NumberThen(n, rest));
    var s := time + (before + colon);
    assert s[..4] == time;
    assert s[4..] == before + colon;
    TakeRunSplits(before, colon, Space);
    MatchColonSpell(after, n, rest);
  }

  /** Round trip: a line made of a well-formed hit followed by text that cannot
      extend the number parses back to exactly that hit and that rest. */
  lemma ParseSpell(h: Hit, rest: string)
    requires WellFormedHit(h) && Greedy(h.number, rest)
    ensures Parse(Spell(h, rest)) == Some((h, rest))
  {
    ParseStart(h, rest);
  }

  /** Every line that starts with a string of the pattern's language is
      matched, whatever follows (trailing text such as " ms" is ignored). */
  lemma ParseAccepts(h: Hit, rest: string)
    requires WellFormedHit(h)
    ensures Parse(Spell(h, rest)).Some?
  {
    ParseStart(h, rest);
  }

  lemma ParseStart(h: Hit, rest: string)
    requires WellFormedHit(h)
    ensures Parse(Spell(h, rest)).Some?
    ensures Greedy(h.number, rest) ==> Parse(Spell(h, rest)) == Some((h, rest))
  {
    var tail := h.time + (h.beforeColon + (":" + (h.afterColon + NumberThen(h.number, rest))));
    var line := Spell(h, rest);
    assert line[..9] == h.execution;
    assert line[9..] == h.gap + tail;
    assert Lower(tail[0]) == 't';
    TakeRunSplits(h.gap, tail, Space);
    MatchTimeSpell(h.time, h.beforeColon, h.afterColon, h.number, rest);
  }

  /** `re.match` succeeds exactly on the lines that start with a string of the
      pattern's language. */
  lemma ParseIffPatternPrefix(line: string)
    ensures Parse(line).Some? <==> exists h, rest :: Decomposes(line, h, rest)
  {
    if exists h, rest :: Decomposes(line, h, rest) {
      var h, rest :| Decomposes(line, h, rest);
      ParseAccepts(h, rest);
    }
  }

  /** The match is anchored: a line whose first character is not an
      upper- or lower-case 'e' (leading blanks included) never matches. */
  lemma ParseAnchored(line: string)
    requires line == [] || Lower(line[0]) != 'e'
    ensures Parse(line) == None
  {
  }

  /** A typical EXPLAIN ANALYZE output line: the number is captured without
      the trailing " ms". */
  lemma ParseExampleMixedCase()
    ensures Parse("Execution Time: 12.50 ms") ==
            Some((Hit("Execution", " ", "Time", "", " ", Numeral("12", "50")), " ms"))
  {
    var h := Hit("Execution", " ", "Time", "", " ", Numeral("12", "50"));
    assert SameIgnoringCase(h.execution, "execution") by {
      assert h.execution == ['E'] + "xecution";
    }
    assert AllIn(h.afterColon, Space) by {
      assert h.afterColon[0] == ' ';
    }
    assert WellFormed(h.number) by {
      assert h.number.whole == ['1', '2'];
      assert h.number.fraction == ['5', '0'];
    }
    assert Spell(h, " ms") == "Execution Time: 12.50 ms";
    ParseSpell(h, " ms");
  }

  /** Upper case, a tab as the gap, a blank before the colon and none after. */
  lemma ParseExampleUpperCase()
    ensures Parse("EXECUTION\tTIME :7") ==
            Some((Hit("EXECUTION", "\t", "TIME", " ", "", Numeral("7", "")), ""))
  {
    var h := Hit("EXECUTION", "\t", "TIME", " ", "", Numeral("7", ""));
    assert Spell(h, "") == "EXECUTION\tTIME :7";
    ParseSpell(h, "");
  }

  /** Other plan lines, and a line with a leading blank, do not match. */
  lemma ParseExamplesRejected()
    ensures Parse("Planning Time: 0.1 ms") == None
    ensures Parse(" Execution Time: 3 ms") == None
  {
    assert Lower("Planning Time: 0.1 ms"[0]) != 'e';
    assert Lower(" Execution Time: 3 ms"[0]) != 'e';
  }
}

=== FILE: results.dfy ===
/** Failure-carrying values shared by every module of the model: Python
    exceptions become the `Failure`/`Fail` alternatives. */
module Results {

  datatype Option<T> = None | Some(value: T)

  /** A computation that either returns `value` or raises `error`. */
  datatype Result<T, E> = Success(value: T) | Failure(error: E)

  /** A check that either passes or raises `error`; it returns nothing. */
  datatype Outcome<E> = Pass | Fail(error: E)
}

=== FILE: sessions.dfy ===
/** Issuing steps against a server, stopping at the first exception, and the
    predicate that says a run so far follows a planned sequence of steps. */
module Sessions {
  import opened Results
  import opened Database
  import opened ExecTime

  /** The exceptions that end a run. */
  datatype RunError =
    | StepFailed(step: Step, message: string)  // the driver or the database raised
    | QueryFailed(error: ParseError)           // get_exec_time raised
    | NoSizeRow                                // fetchone() returned None
    | NoSizeColumn                             // the size row has no column
    | EmptySamples                             // statistics.mean of an empty list

  /** Where a run stands: the session so far and the value computed, or the
      exception that ended it. */
  datatype Progress<T> = Progress(session: Session, result: Result<T, RunError>)

  /** Sends one step. A failing reply raises; the step still counts as issued
      but has no effect. */
  function Issue(srv: Server, s: Session, step: Step): (p: Progress<Reply>)
    ensures p.session.trace == s.trace + [step]
    ensures p.result.Success? <==> srv.reply(|s.trace|).Completed?
    ensures p.result.Success? ==> p.result.value == srv.reply(|s.trace|)
                                  && p.session.db == Apply(s.db, step)
    ensures p.result.Failure? ==> p.session.db == s.db
  {
    var reply := srv.reply(|s.trace|);
    match reply
    case Failed(message) =>
      Progress(Session(s.db, s.trace + [step]), Failure(StepFailed(step, message)))
    case Completed(_, _) =>
      Progress(Session(Apply(s.db, step), s.trace + [step]), Success(reply))
  }

  /** Propagates an exception unchanged. */
  function Halt<T, U>(p: Progress<T>): Progress<U>
    requires p.result.Failure?
  {
    Progress(p.session, Failure(p.result.error))
  }

  /** Sends the steps in order until one raises. */
  function IssueAll(srv: Server, s: Session, steps: seq<Step>): Progress<()>
    decreases |steps|
  {
    if steps == [] then Progress(s, Success(()))
    else
      var p := Issue(srv, s, steps[0]);
      if p.result.Failure? then Halt(p) else IssueAll(srv, p.session, steps[1..])
  }

  ghost predicate FailedStep<T>(p: Progress<T>) {
    p.result.Failure? && p.result.error.StepFailed?
  }

  /** The number of steps issued since `start`. */
  ghost function Issued<T>(start: Session, p: Progress<T>): int {
    |p.session.trace| - |start.trace|
  }

  /** The number of steps since `start` that completed (took effect). */
  ghost function Applied<T>(start: Session, p: Progress<T>): int {
    if FailedStep(p) then Issued(start, p) - 1 else Issued(start, p)
  }

  /** Starting from `start`, `p` is what issuing a prefix of `plan` in order
      produced: the steps issued are exactly that prefix; every one of them
      but a failing last one completed and took effect; a failing last step
      is the exception reported; and success means the whole plan ran. */
  ghost predicate FollowsPlan<T>(srv: Server, start: Session, p: Progress<T>, plan: seq<Step>) {
    var issued := Issued(start, p);
    && 0 <= issued <= |plan|
    && p.session.trace == start.trace + plan[..issued]
    && (FailedStep(p) ==>
          && issued > 0
          && srv.reply(|p.session.trace| - 1).Failed?
          && p.result.error == StepFailed(plan[issued - 1], srv.reply(|p.session.trace| - 1).message))
    && (forall k :: |start.trace| <= k < |start.trace| + Applied(start, p) ==> srv.reply(k).Completed?)
    && p.session.db == Replay(start.db, plan[..Applied(start, p)])
    && (p.result.Success? ==> issued == |plan|)
  }

  lemma IssueFollows(srv: Server, s: Session, step: Step)
    ensures FollowsPlan(srv, s, Issue(srv, s, step), [step])
  {
    assert [step][..0] == [];
    assert Replay(s.db, [step]) == Apply(s.db, step) by {
      assert [step][1..] == [];
    }
  }

  /** A successful run of `plan1` followed by a run of `plan2` from where it
      ended follows `plan1 + plan2`. */
  lemma FollowsThen<T, U>(srv: Server, s: Session, p1: Progress<T>, plan1: seq<Step>,
                          p2: Progress<U>, plan2: seq<Step>)
    requires FollowsPlan(srv, s, p1, plan1) && p1.result.Success?
    requires FollowsPlan(srv, p1.session, p2, plan2)
    ensures FollowsPlan(srv, s, p2, plan1 + plan2)
  {
    var plan := plan1 + plan2;
    var i2 := Issued(p1.session, p2);
    var a2 := Applied(p1.session, p2);
    assert plan1[..|plan1|] == plan1;
    assert p1.session.trace == s.trace + plan1;
    assert plan[..|plan1| + i2] == plan1 + plan2[..i2];
    assert p2.session.trace == s.trace + plan[..|plan1| + i2];
    if FailedStep(p2) {
      assert plan[|plan1| + i2 - 1] == plan2[i2 - 1];
    }
    assert plan[..|plan1| + a2] == plan1 + plan2[..a2];
    ReplayAppend(s.db, plan1, plan2[..a2]);
  }

  /** An exception ends the run: a run that failed while following `plan1`
      also follows any extension of `plan1`. */
  lemma HaltFollows<T, U>(srv: Server, s: Session, p: Progress<T>, plan1: seq<Step>, plan2: seq<Step>)
    requires FollowsPlan(srv, s, p, plan1) && p.result.Failure?
    ensures FollowsPlan(srv, s, Halt<T, U>(p), plan1 + plan2)
    ensures Applied(s, Halt<T, U>(p)) == Applied(s, p) <= |plan1|
  {
    var i := Issued(s, p);
    assert (plan1 + plan2)[..i] == plan1[..i];
    assert (plan1 + plan2)[..Applied(s, p)] == plan1[..Applied(s, p)];
  }

  /** A run that completed every step of `plan1` may go on to raise an
      exception of its own (not a step failure) before the steps of `plan2`,
      or succeed when no steps remain, without breaking the plan. */
  lemma Conclude<T, U>(srv: Server, s: Session, p: Progress<T>, plan1: seq<Step>, plan2: seq<Step>,
                       r: Result<U, RunError>)
    requires FollowsPlan(srv, s, p, plan1) && p.result.Success?
    requires !(r.Failure? && r.error.StepFailed?)
    requires r.Success? ==> plan2 == []
    ensures FollowsPlan(srv, s, Progress(p.session, r), plan1 + plan2)
    ensures Applied(s, Progress(p.session, r)) == |plan1|
  {
    assert (plan1 + plan2)[..|plan1|] == plan1;
    assert plan1[..|plan1|] == plan1;
  }

  /** Issuing a list of steps follows that list. */
  lemma {:induction false} IssueAllFollows(srv: Server, s: Session, steps: seq<Step>)
    ensures FollowsPlan(srv, s, IssueAll(srv, s, steps), steps)
    decreases |steps|
  {
    if steps == [] {
      assert steps[..0] == [];
    } else {
      var p := Issue(srv, s, steps[0]);
      IssueFollows(srv, s, steps[0]);
      assert [steps[0]] + steps[1..] == steps;
      if p.result.Failure? {
        HaltFollows<Reply, ()>(srv, s, p, [steps[0]], steps[1..]);
      } else {
        IssueAllFollows(srv, p.session, steps[1..]);
        FollowsThen(srv, s, p, [steps[0]], IssueAll(srv, p.session, steps[1..]), steps[1..]);
      }
    }
  }

  /** A list of steps goes through exactly when every one of its replies
      completes. */
  lemma {:induction false} IssueAllSucceedsIff(srv: Server, s: Session, steps: seq<Step>)
    ensures IssueAll(srv, s, steps).result.Success?
        <==> forall k :: |s.trace| <= k < |s.trace| + |steps| ==> srv.reply(k).Completed?
    decreases |steps|
  {
    if steps != [] {
      var p := Issue(srv, s, steps[0]);
      IssueAllSucceedsIff(srv, p.session, steps[1..]);
    }
  }

  /** Sending a fixed list of steps raises nothing but step failures. */
  lemma {:induction false} IssueAllRaisesOnlyStepFailures(srv: Server, s: Session, steps: seq<Step>)
    ensures IssueAll(srv, s, steps).result.Failure? ==> IssueAll(srv, s, steps).result.error.StepFailed?
    decreases |steps|
  {
    if steps != [] {
      var p := Issue(srv, s, steps[0]);
      if p.result.Success? {
        IssueAllRaisesOnlyStepFailures(srv, p.session, steps[1..]);
      }
    }
  }

  /** A list of steps that went through appended exactly those steps. */
  lemma {:induction false} IssueAllTrace(srv: Server, s: Session, steps: seq<Step>)
    requires IssueAll(srv, s, steps).result.Success?
    ensures IssueAll(srv, s, steps).session.trace == s.trace + steps
    decreases |steps|
  {
    if steps != [] {
      var p := Issue(srv, s, steps[0]);
      IssueAllTrace(srv, p.session, steps[1..]);
      assert s.trace + steps == s.trace + [steps[0]] + steps[1..];
    }
  }
}

=== FILE: trial_run.dfy ===
/** `run`: one benchmark against one connection target. It drops and
    re-imports the working table, closes and reopens the connection, runs
    `times` trials of (drop index, create index, EXPLAIN ANALYZE query),
    asks for a relation size, computes the statistics and drops the table.
    Any exception ends the run where it happened. */
module TrialRun {
  import opened Results
  import opened Numerals
  import opened Database
  import opened ExecTime
  import opened Sessions

  /** The name of the benchmark's index: the table name followed by "_idx". */
  function IndexName(table: string): string {
    table + "_idx"
  }

  /** The table an index name was derived from, if it was derived at all. */
  function TableOfIndex(index: string): Option<string> {
    if |index| >= 4 && index[|index| - 4..] == "_idx" then Some(index[..|index| - 4]) else None
  }

  /** Index names and table names determine each other. */
  lemma IndexNameRoundTrip(table: string, index: string)
    ensures TableOfIndex(IndexName(table)) == Some(table)
    ensures TableOfIndex(index) == Some(table) ==> IndexName(table) == index
  {
    var n := IndexName(table);
    assert n[..|n| - 4] == table;
    assert n[|n| - 4..] == "_idx";
    if TableOfIndex(index) == Some(table) {
      assert index == index[..|index| - 4] + index[|index| - 4..];
    }
  }

  /** Connect, drop the table, run the import script, close, reconnect. */
  function Prologue(table: string, script: string): seq<Step> {
    [Connect, Sql(DropTable(table)), Sql(ImportScript(script)), Close, Connect]
  }

  /** One iteration of the trial loop. */
  function TrialSteps(table: string, index: string): seq<Step> {
    [Sql(DropIndex(index)), Sql(CreateIndex(index, table)), Sql(ExplainJoin(table))]
  }

  /** The size query (on the table, as bm.py writes it) and the cleanup. */
  function Epilogue(table: string): seq<Step> {
    [Sql(RelationSize(table)), Sql(DropTable(table))]
  }

  function Repeat(xs: seq<Step>, n: nat): seq<Step> {
    if n == 0 then [] else xs + Repeat(xs, n - 1)
  }

  /** Every step a run with `n` trials issues when nothing fails. */
  function Plan(table: string, script: string, n: nat): seq<Step> {
    Prologue(table, script) + Repeat(TrialSteps(table, IndexName(table)), n) + Epilogue(table)
  }

  /** The iteration count of `range(0, times)`: `times` is not raised to 1. */
  function TrialCount(times: int): nat {
    if times < 0 then 0 else times
  }

  /** One trial's measurements: the client-observed CREATE INDEX time and the
      server-reported query execution time. */
  datatype TrialResult = TrialResult(createMs: real, selectMs: real)

  /** The two sample lists the loop appends to. */
  datatype Samples = Samples(createMs: seq<real>, selectMs: seq<real>)

  /** What the run reports: the samples the averages and medians are taken
      over, and the value returned by the size query. */
  datatype Report = Report(createMs: seq<real>, selectMs: seq<real>, indexSize: Cell)

  /** The client-observed duration of a completed CREATE INDEX. */
  function BuildTime(reply: Reply): Option<real> {
    if reply.Completed? then Some(reply.elapsedMs) else None
  }

  /** The execution time parsed from an EXPLAIN ANALYZE reply, if there is one. */
  function PlanTime(reply: Reply): Option<real> {
    if reply.Completed? && GetExecTime(reply.rows).Success?
    then Some(Value(GetExecTime(reply.rows).value))
    else None
  }

  /** One loop iteration: drop the index if it exists, time its creation,
      run the query and parse its execution time. */
  function Trial(srv: Server, s: Session, table: string, index: string): Progress<TrialResult> {
    var dropped := Issue(srv, s, Sql(DropIndex(index)));
    if dropped.result.Failure? then Halt(dropped)
    else
      var created := Issue(srv, dropped.session, Sql(CreateIndex(index, table)));
      if created.result.Failure? then Halt(created)
      else
        var explained := Issue(srv, created.session, Sql(ExplainJoin(table)));
        if explained.result.Failure? then Halt(explained)
        else
          match GetExecTime(explained.result.value.rows)
          case Failure(e) => Progress(explained.session, Failure(QueryFailed(e)))
          case Success(n) =>
            Progress(explained.session, Success(TrialResult(created.result.value.elapsedMs, Value(n))))
  }

  /** The loop body against `srv`, as a function of the session it starts in. */
  function TrialOn(srv: Server, table: string, index: string): Session -> Progress<TrialResult> {
    s => Trial(srv, s, table, index)
  }

  /** Appending one trial's measurements to the sample lists. */
  function AddTrial(acc: Samples, t: TrialResult): Samples {
    Samples(acc.createMs + [t.createMs], acc.selectMs + [t.selectMs])
  }

  /** The trial loop: `n` more iterations of `trial`, appending each one's
      measurements to `acc`. */
  function Trials(trial: Session -> Progress<TrialResult>, s: Session, n: nat, acc: Samples): Progress<Samples>
    decreases n
  {
    if n == 0 then Progress(s, Success(acc))
    else
      var t := trial(s);
      if t.result.Failure? then Halt(t)
      else Trials(trial, t.session, n - 1, AddTrial(acc, t.result.value))
  }

  /** After the loop: the size query, `fetchone()[0]`, the statistics (which
      raise on an empty sample list) and the cleanup. */
  function Finish(srv: Server, s: Session, table: string, samples: Samples): Progress<Report> {
    var sized := Issue(srv, s, Sql(RelationSize(table)));
    if sized.result.Failure? then Halt(sized)
    else
      var rows := sized.result.value.rows;
      if rows == [] then Progress(sized.session, Failure(NoSizeRow))
      else if rows[0] == [] then Progress(sized.session, Failure(NoSizeColumn))
      else if samples.createMs == [] then Progress(sized.session, Failure(EmptySamples))
      else
        var dropped := Issue(srv, sized.session, Sql(DropTable(table)));
        if dropped.result.Failure? then Halt(dropped)
        else Progress(dropped.session, Success(Report(samples.createMs, samples.selectMs, rows[0][0])))
  }

  /** `run(connection_params, table, data_path, times)` against the database
      `srv` the connection parameters reach. */
  function Run(srv: Server, table: string, script: string, times: int): Progress<Report> {
    var prepared := IssueAll(srv, Session(srv.initial, []), Prologue(table, script));
    if prepared.result.Failure? then Halt(prepared)
    else
      var trials := Trials(TrialOn(srv, table, IndexName(table)), prepared.session, TrialCount(times), Samples([], []));
      if trials.result.Failure? then Halt(trials)
      else Finish(srv, trials.session, table, trials.result.value)
  }

  // ---------------------------------------------------------------------
  // The run follows its plan

  /** A trial `t` started in `s` that succeeded issued three statements; its
      create time is the elapsed time of the second reply and its query time
      is parsed from the third. */
  ghost predicate Measured(create: nat -> Option<real>, query: nat -> Option<real>, s: Session, t: Progress<TrialResult>) {
    t.result.Success? ==>
      && |t.session.trace| == |s.trace| + 3
      && create(|s.trace| + 1) == Some(t.result.value.createMs)
      && query(|s.trace| + 2) == Some(t.result.value.selectMs)
  }

  /** What each reply of `srv` yields as a CREATE INDEX sample, by step. */
  function BuildTimes(srv: Server): nat -> Option<real> {
    (k: nat) => BuildTime(srv.reply(k))
  }

  /** What each reply of `srv` yields as a query sample, by step. */
  function PlanTimes(srv: Server): nat -> Option<real> {
    (k: nat) => PlanTime(srv.reply(k))
  }

  /** When a trial succeeds its create time is the elapsed time of the
      CREATE INDEX reply and its query time is parsed from the EXPLAIN
      ANALYZE reply. */
  lemma TrialMeasures(srv: Server, s: Session, table: string, index: string)
    ensures Measured(BuildTimes(srv), PlanTimes(srv), s, Trial(srv, s, table, index))
  {
    var dropped := Issue(srv, s, Sql(DropIndex(index)));
    var created := Issue(srv, dropped.session, Sql(CreateIndex(index, table)));
    var explained := Issue(srv, created.session, Sql(ExplainJoin(table)));
    assert |created.session.trace| == |s.trace| + 2;
  }

  /** A trial issues the three trial statements in order and stops at the
      first exception. */
  lemma TrialFollows(srv: Server, s: Session, table: string, index: string)
    ensures FollowsPlan(srv, s, Trial(srv, s, table, index), TrialSteps(table, index))
  {
    var a, b, c := Sql(DropIndex(index)), Sql(CreateIndex(index, table)), Sql(ExplainJoin(table));
    assert TrialSteps(table, index) == [a] + [b, c] == [a, b] + [c];
    assert [a, b] == [a] + [b];
    var dropped := Issue(srv, s, a);
    IssueFollows(srv, s, a);
    if dropped.result.Failure? {
      HaltFollows<Reply, TrialResult>(srv, s, dropped, [a], [b, c]);
      return;
    }
    var created := Issue(srv, dropped.session, b);
    IssueFollows(srv, dropped.session, b);
    FollowsThen(srv, s, dropped, [a], created, [b]);
    if created.result.Failure? {
      HaltFollows<Reply, TrialResult>(srv, s, created, [a, b], [c]);
      return;
    }
    var explained := Issue(srv, created.session, c);
    IssueFollows(srv, created.session, c);
    FollowsThen(srv, s, created, [a, b], explained, [c]);
    if explained.result.Failure? {
      HaltFollows<Reply, TrialResult>(srv, s, explained, TrialSteps(table, index), []);
      assert TrialSteps(table, index) + [] == TrialSteps(table, index);
      return;
    }
    var t := Trial(srv, s, table, index);
    Conclude(srv, s, explained, TrialSteps(table, index), [], t.result);
    assert TrialSteps(table, index) + [] == TrialSteps(table, index);
  }

  /** Every trial follows `steps`, so the loop issues `n` copies of them,
      stopping at the first exception. */
  lemma {:induction false} TrialsFollow(srv: Server, trial: Session -> Progress<TrialResult>, steps: seq<Step>,
                                        s: Session, n: nat, acc: Samples)
    requires forall s' :: FollowsPlan(srv, s', trial(s'), steps)
    ensures FollowsPlan(srv, s, Trials(trial, s, n, acc), Repeat(steps, n))
    decreases n
  {
    if n == 0 {
      assert Repeat(steps, 0)[..0] == [];
    } else {
      var t := trial(s);
      assert FollowsPlan(srv, s, t, steps);
      if t.result.Failure? {
        HaltFollows<TrialResult, Samples>(srv, s, t, steps, Repeat(steps, n - 1));
      } else {
        var acc' := AddTrial(acc, t.result.value);
        TrialsFollow(srv, trial, steps, t.session, n - 1, acc');
        FollowsThen(srv, s, t, steps, Trials(trial, t.session, n - 1, acc'), Repeat(steps, n - 1));
      }
    }
  }

  /** `r` extends `acc` by `n` values, the k-th the reading of step
      base + 3k + offset. */
  ghost predicate ReadFrom(reading: nat -> Option<real>, base: nat, offset: nat, acc: seq<real>, r: seq<real>, n: nat) {
    && |r| == |acc| + n
    && r[..|acc|] == acc
    && (forall k :: 0 <= k < n ==> reading(base + 3 * k + offset) == Some(r[|acc| + k]))
  }

  /** `r` extends `acc` by `n` samples per list, trial k's read at steps
      base+3k+1 (CREATE INDEX) and base+3k+2 (EXPLAIN ANALYZE). */
  ghost predicate SamplesFrom(create: nat -> Option<real>, query: nat -> Option<real>,
                              base: nat, acc: Samples, r: Samples, n: nat) {
    && ReadFrom(create, base, 1, acc.createMs, r.createMs, n)
    && ReadFrom(query, base, 2, acc.selectMs, r.selectMs, n)
  }

  /** Peeling the first value off a read sequence. */
  lemma ReadFromStep(reading: nat -> Option<real>, base: nat, offset: nat, acc: seq<real>, x: real, r: seq<real>, n: nat)
    requires n > 0
    requires reading(base + offset) == Some(x)
    requires ReadFrom(reading, base + 3, offset, acc + [x], r, n - 1)
    ensures ReadFrom(reading, base, offset, acc, r, n)
  {
    assert r[..|acc|] == r[..|acc| + 1][..|acc|];
    assert r[|acc|] == r[..|acc| + 1][|acc|];
    forall k | 0 < k < n
      ensures reading(base + 3 * k + offset) == Some(r[|acc| + k])
    {
      var j := k - 1;
      assert base + 3 + 3 * j + offset == base + 3 * k + offset;
      assert reading(base + 3 + 3 * j + offset) == Some(r[|acc + [x]| + j]);
    }
  }

  /** A completed loop appended exactly `n` samples to each list: trial k's
      create time is the elapsed time of the loop's (3k+1)-th reply and its
      query time is parsed from the (3k+2)-th. */
  lemma {:induction false} TrialsSamples(create: nat -> Option<real>, query: nat -> Option<real>,
                                         trial: Session -> Progress<TrialResult>, s: Session, n: nat, acc: Samples)
    requires forall s' :: Measured(create, query, s', trial(s'))
    requires Trials(trial, s, n, acc).result.Success?
    ensures |Trials(trial, s, n, acc).session.trace| == |s.trace| + 3 * n
    ensures SamplesFrom(create, query, |s.trace|, acc, Trials(trial, s, n, acc).result.value, n)
    decreases n
  {
    var r := Trials(trial, s, n, acc).result.value;
    if n == 0 {
      assert r == acc;
      assert acc.createMs[..|acc.createMs|] == acc.createMs;
      assert acc.selectMs[..|acc.selectMs|] == acc.selectMs;
    } else {
      var t := trial(s);
      assert Measured(create, query, s, t);
      var acc' := AddTrial(acc, t.result.value);
      TrialsSamples(create, query, trial, t.session, n - 1, acc');
      ReadFromStep(create, |s.trace|, 1, acc.createMs, t.result.value.createMs, r.createMs, n);
      ReadFromStep(query, |s.trace|, 2, acc.selectMs, t.result.value.selectMs, r.selectMs, n);
    }
  }

  /** The replies of one trial starting at step `base` are usable: the DROP
      INDEX and the CREATE INDEX completed, and the EXPLAIN ANALYZE reply
      completed with an execution time `get_exec_time` finds. */
  predicate TrialUsable(srv: Server, base: nat) {
    srv.reply(base).Completed? && srv.reply(base + 1).Completed? && PlanTime(srv.reply(base + 2)).Some?
  }

  /** `TrialUsable` as a function of the first step. */
  function UsableTrials(srv: Server): nat -> bool {
    (base: nat) => TrialUsable(srv, base)
  }

  /** The two ways of saying that `n` trials from `base` on have usable
      replies agree. */
  lemma UsableTrialsIff(srv: Server, base: nat, n: int)
    ensures AllUsable(UsableTrials(srv), base, n) <==> (forall k :: 0 <= k < n ==> TrialUsable(srv, base + 3 * k))
  {
    var usable := UsableTrials(srv);
    assert forall b: nat :: usable(b) == TrialUsable(srv, b);
  }

  /** A trial succeeds exactly when its replies are usable. */
  lemma TrialSucceedsIff(srv: Server, s: Session, table: string, index: string)
    ensures Trial(srv, s, table, index).result.Success? <==> TrialUsable(srv, |s.trace|)
  {
    var dropped := Issue(srv, s, Sql(DropIndex(index)));
    var created := Issue(srv, dropped.session, Sql(CreateIndex(index, table)));
    assert |created.session.trace| == |s.trace| + 2;
  }

  /** Every trial of a run's loop succeeds exactly on usable replies. */
  lemma TrialOnSucceeds(srv: Server, table: string)
    ensures SucceedsOn(TrialOn(srv, table, IndexName(table)), UsableTrials(srv))
  {
    TrialOnSteps(srv, table);
    forall s' ensures TrialOn(srv, table, IndexName(table))(s').result.Success? <==> UsableTrials(srv)(|s'.trace|) {
      TrialSucceedsIff(srv, s', table, IndexName(table));
    }
  }

  /** A successful trial of a run's loop issued three steps. */
  lemma TrialOnSteps(srv: Server, table: string)
    ensures forall s' :: TrialOn(srv, table, IndexName(table))(s').result.Success? ==>
                           |TrialOn(srv, table, IndexName(table))(s').session.trace| == |s'.trace| + 3
  {
    forall s'
      ensures TrialOn(srv, table, IndexName(table))(s').result.Success? ==>
                |TrialOn(srv, table, IndexName(table))(s').session.trace| == |s'.trace| + 3
    {
      TrialFollows(srv, s', table, IndexName(table));
    }
  }

  /** Every trial of a run's loop measured the right replies. */
  lemma TrialOnMeasured(srv: Server, table: string)
    ensures forall s' :: Measured(BuildTimes(srv), PlanTimes(srv), s', TrialOn(srv, table, IndexName(table))(s'))
  {
    forall s' ensures Measured(BuildTimes(srv), PlanTimes(srv), s', TrialOn(srv, table, IndexName(table))(s')) {
      TrialMeasures(srv, s', table, IndexName(table));
    }
  }

  /** Every trial of a run's loop raises only on an unusable EXPLAIN ANALYZE reply. */
  lemma TrialOnErrorSite(srv: Server, table: string)
    ensures forall s' :: RaisedAtQuery(srv, TrialOn(srv, table, IndexName(table))(s'), table)
  {
    forall s' ensures RaisedAtQuery(srv, TrialOn(srv, table, IndexName(table))(s'), table) {
      TrialErrorSite(srv, s', table, IndexName(table));
    }
  }

  /** A loop whose trials each issue three steps issued three per trial and
      appended one sample per trial to each list. */
  lemma {:induction false} TrialsCount(trial: Session -> Progress<TrialResult>, s: Session, n: nat, acc: Samples)
    requires forall s' :: trial(s').result.Success? ==> |trial(s').session.trace| == |s'.trace| + 3
    requires Trials(trial, s, n, acc).result.Success?
    ensures |Trials(trial, s, n, acc).session.trace| == |s.trace| + 3 * n
    ensures |Trials(trial, s, n, acc).result.value.createMs| == |acc.createMs| + n
    ensures |Trials(trial, s, n, acc).result.value.selectMs| == |acc.selectMs| + n
    decreases n
  {
    if n > 0 {
      var t := trial(s);
      TrialsCount(trial, t.session, n - 1, AddTrial(acc, t.result.value));
    }
  }

  /** `usable` holds at the first step of each of `n` trials from `base` on. */
  ghost predicate AllUsable(usable: nat -> bool, base: nat, n: int) {
    forall k :: 0 <= k < n ==> usable(base + 3 * k)
  }

  /** Each trial succeeds exactly when `usable` holds of the step it starts
      at, and a successful one issued three steps. */
  ghost predicate SucceedsOn(trial: Session -> Progress<TrialResult>, usable: nat -> bool) {
    && (forall s' :: trial(s').result.Success? <==> usable(|s'.trace|))
    && (forall s' :: trial(s').result.Success? ==> |trial(s').session.trace| == |s'.trace| + 3)
  }

  /** When each trial succeeds exactly on usable replies and then issued
      three steps, the loop of `n` trials succeeds exactly when the replies
      of each of its `n` trials are usable. */
  lemma {:induction false} TrialsSucceedIff(usable: nat -> bool, trial: Session -> Progress<TrialResult>,
                                            s: Session, n: nat, acc: Samples)
    requires SucceedsOn(trial, usable)
    ensures Trials(trial, s, n, acc).result.Success? <==> AllUsable(usable, |s.trace|, n)
    decreases n
  {
    if n > 0 {
      var t := trial(s);
      if t.result.Failure? {
        assert !usable(|s.trace| + 3 * 0);
      } else {
        var base := |t.session.trace|;
        TrialsSucceedIff(usable, trial, t.session, n - 1, AddTrial(acc, t.result.value));
        if AllUsable(usable, base, n - 1) {
          forall k | 0 <= k < n ensures usable(|s.trace| + 3 * k) {
            if k > 0 {
              assert usable(base + 3 * (k - 1));
              assert base + 3 * (k - 1) == |s.trace| + 3 * k;
            }
          }
        }
        if AllUsable(usable, |s.trace|, n) {
          forall k | 0 <= k < n - 1 ensures usable(base + 3 * k) {
            assert usable(|s.trace| + 3 * (k + 1));
          }
        }
      }
    }
  }

  /** The size query and the cleanup, stopping at the first exception: a
      failed finish never completed the cleanup. */
  lemma FinishFollows(srv: Server, s: Session, table: string, samples: Samples)
    ensures var p := Finish(srv, s, table, samples);
      && FollowsPlan(srv, s, p, Epilogue(table))
      && (p.result.Failure? ==> Applied(s, p) < 2)
  {
    var a, b := Sql(RelationSize(table)), Sql(DropTable(table));
    assert Epilogue(table) == [a] + [b];
    var sized := Issue(srv, s, a);
    IssueFollows(srv, s, a);
    if sized.result.Failure? {
      HaltFollows<Reply, Report>(srv, s, sized, [a], [b]);
      return;
    }
    var p := Finish(srv, s, table, samples);
    var rows := sized.result.value.rows;
    if rows == [] || rows[0] == [] || samples.createMs == [] {
      Conclude(srv, s, sized, [a], [b], p.result);
      return;
    }
    var dropped := Issue(srv, sized.session, b);
    IssueFollows(srv, sized.session, b);
    FollowsThen(srv, s, sized, [a], dropped, [b]);
    if dropped.result.Failure? {
      HaltFollows<Reply, Report>(srv, s, dropped, Epilogue(table), []);
      assert Epilogue(table) + [] == Epilogue(table);
      return;
    }
    Conclude(srv, s, dropped, Epilogue(table), [], p.result);
    assert Epilogue(table) + [] == Epilogue(table);
  }

  /** The table is dropped only when the size row is usable and there is at
      least one sample; the report holds the samples and the first column of
      the size query's first row. */
  lemma FinishReport(srv: Server, s: Session, table: string, samples: Samples)
    requires Finish(srv, s, table, samples).result.Success?
    ensures var p := Finish(srv, s, table, samples);
      && samples.createMs != []
      && srv.reply(|s.trace|).Completed?
      && srv.reply(|s.trace|).rows != [] && srv.reply(|s.trace|).rows[0] != []
      && p.result.value == Report(samples.createMs, samples.selectMs, srv.reply(|s.trace|).rows[0][0])
  {
  }

  /** The finish succeeds exactly when the size query completes with a
      first column in its first row, there is at least one sample, and the
      cleanup completes. */
  lemma FinishSucceedsIff(srv: Server, s: Session, table: string, samples: Samples)
    ensures Finish(srv, s, table, samples).result.Success? <==>
      && srv.reply(|s.trace|).Completed?
      && srv.reply(|s.trace|).rows != [] && srv.reply(|s.trace|).rows[0] != []
      && samples.createMs != []
      && srv.reply(|s.trace| + 1).Completed?
  {
  }

  // ---------------------------------------------------------------------
  // The shape of the plan

  lemma {:induction false} RepeatLength(xs: seq<Step>, n: nat)
    ensures |Repeat(xs, n)| == n * |xs|
  {
    if n > 0 {
      RepeatLength(xs, n - 1);
      assert n * |xs| == (n - 1) * |xs| + |xs|;
    }
  }

  lemma {:induction false} RepeatAt(xs: seq<Step>, n: nat, i: int)
    requires |xs| == 3 && 0 <= i < 3 * n
    ensures |Repeat(xs, n)| == 3 * n
    ensures Repeat(xs, n)[i] == xs[i % 3]
  {
    RepeatLength(xs, n);
    if i >= 3 {
      RepeatLength(xs, n - 1);
      RepeatAt(xs, n - 1, i - 3);
      assert (i - 3) % 3 == i % 3;
    }
  }

  /** The plan has 3n + 7 steps: five of preparation, three per trial, the
      size query and the cleanup. */
  lemma PlanLength(table: string, script: string, n: nat)
    ensures |Plan(table, script, n)| == 3 * n + 7
  {
    RepeatLength(TrialSteps(table, IndexName(table)), n);
  }

  lemma PlanAt(table: string, script: string, n: nat, m: int)
    requires 0 <= m < |Plan(table, script, n)|
    ensures |Plan(table, script, n)| == 3 * n + 7
    ensures m < 5 ==> Plan(table, script, n)[m] == Prologue(table, script)[m]
    ensures 5 <= m < 5 + 3 * n ==> Plan(table, script, n)[m] == TrialSteps(table, IndexName(table))[(m - 5) % 3]
    ensures 5 + 3 * n <= m ==> Plan(table, script, n)[m] == Epilogue(table)[m - 5 - 3 * n]
  {
    var rep := Repeat(TrialSteps(table, IndexName(table)), n);
    RepeatLength(TrialSteps(table, IndexName(table)), n);
    if 5 <= m < 5 + 3 * n {
      RepeatAt(TrialSteps(table, IndexName(table)), n, m - 5);
    }
  }

  /** Every CREATE INDEX of the plan comes right after a DROP INDEX IF EXISTS
      of the same name, so the index never exists when it is created. */
  lemma PlanDropsBeforeCreate(db: DbState, table: string, script: string, n: nat, m: int)
    requires 0 <= m < |Plan(table, script, n)|
    requires Plan(table, script, n)[m].Sql? && Plan(table, script, n)[m].stmt.CreateIndex?
    ensures Plan(table, script, n)[m] == Sql(CreateIndex(IndexName(table), table))
    ensures m >= 6 && Plan(table, script, n)[m - 1] == Sql(DropIndex(IndexName(table)))
    ensures IndexName(table) !in Replay(db, Plan(table, script, n)[..m]).indexes
  {
    var plan := Plan(table, script, n);
    PlanAt(table, script, n, m);
    assert 5 <= m < 5 + 3 * n && (m - 5) % 3 == 1;
    PlanAt(table, script, n, m - 1);
    assert plan[..m] == plan[..m - 1] + [plan[m - 1]];
    ReplaySnoc(db, plan[..m - 1], plan[m - 1]);
  }

  /** The only size query of the plan names the table; the index's size is
      never asked for. */
  lemma PlanSizesTable(table: string, script: string, n: nat, m: int)
    requires 0 <= m < |Plan(table, script, n)|
    requires Plan(table, script, n)[m].Sql? && Plan(table, script, n)[m].stmt.RelationSize?
    ensures m == 5 + 3 * n
    ensures Plan(table, script, n)[m] == Sql(RelationSize(table))
    ensures Plan(table, script, n)[m] != Sql(RelationSize(IndexName(table)))
  {
    PlanAt(table, script, n, m);
    assert |IndexName(table)| != |table|;
  }

  /** Steps that neither drop the table nor create an index other than `index`. */
  predicate KeepsTable(step: Step, index: string) {
    !(step.Sql? && (step.stmt.DropTable? || (step.stmt.CreateIndex? && step.stmt.index != index)))
  }

  lemma {:induction false} ReplayKeeps(db: DbState, steps: seq<Step>, index: string)
    requires forall k :: 0 <= k < |steps| ==> KeepsTable(steps[k], index)
    ensures db.tablePresent ==> Replay(db, steps).tablePresent
    ensures db.indexes <= {index} ==> Replay(db, steps).indexes <= {index}
    decreases |steps|
  {
    if steps != [] {
      assert KeepsTable(steps[0], index);
      ReplayKeeps(Apply(db, steps[0]), steps[1..], index);
    }
  }

  /** The database state along the plan: once the table has been dropped, at
      most the benchmark's own index exists; from the import until the
      cleanup the table is present; the full plan ends with no table and no
      index. */
  lemma PlanStates(db: DbState, table: string, script: string, n: nat, m: int)
    requires 0 <= m <= |Plan(table, script, n)|
    ensures 2 <= m ==> Replay(db, Plan(table, script, n)[..m]).indexes <= {IndexName(table)}
    ensures 3 <= m < |Plan(table, script, n)| ==> Replay(db, Plan(table, script, n)[..m]).tablePresent
    ensures m == |Plan(table, script, n)| ==> Replay(db, Plan(table, script, n)[..m]) == DbState(false, {})
  {
    var plan := Plan(table, script, n);
    var index := IndexName(table);
    PlanAt(table, script, n, 0);
    if m == |plan| {
      PlanAt(table, script, n, m - 1);
      assert plan[..m] == plan[..m - 1] + [plan[m - 1]];
      ReplaySnoc(db, plan[..m - 1], plan[m - 1]);
    } else if m >= 2 {
      PlanAt(table, script, n, 1);
      PlanAt(table, script, n, 2);
      assert plan[..2] == [] + [plan[0]] + [plan[1]];
      ReplaySnoc(db, [], plan[0]);
      ReplaySnoc(db, [plan[0]], plan[1]);
      assert [] + [plan[0]] == [plan[0]];
      var dropped := Replay(db, plan[..2]);
      assert dropped == DbState(false, {});
      assert plan[..3] == plan[..2] + [plan[2]];
      ReplaySnoc(db, plan[..2], plan[2]);
      var imported := Replay(db, plan[..3]);
      assert imported == DbState(true, {});
      forall k | 2 <= k < m ensures KeepsTable(plan[k], index) {
        PlanAt(table, script, n, k);
      }
      assert plan[..m] == plan[..2] + plan[2..m];
      ReplayAppend(db, plan[..2], plan[2..m]);
      ReplayKeeps(dropped, plan[2..m], index);
      if m >= 3 {
        assert plan[..m] == plan[..3] + plan[3..m];
        ReplayAppend(db, plan[..3], plan[3..m]);
        ReplayKeeps(imported, plan[3..m], index);
      }
    }
  }

  /** The plan starts by dropping the table, which takes its indexes with
      it: whatever the database held, neither table nor index is left. */
  lemma PlanDropsTableFirst(db: DbState, table: string, script: string, n: nat)
    ensures Replay(db, Plan(table, script, n)[..2]) == DbState(false, {})
  {
    var plan := Plan(table, script, n);
    PlanAt(table, script, n, 0);
    PlanAt(table, script, n, 1);
    assert plan[..2] == [] + [plan[0]] + [plan[1]];
    assert [] + [plan[0]] == [plan[0]];
    ReplaySnoc(db, [], plan[0]);
    ReplaySnoc(db, [plan[0]], plan[1]);
  }

  /** Each CREATE INDEX of the plan builds the index: right after trial k's
      CREATE INDEX the table is present and the benchmark's index is the
      only index on it. */
  lemma PlanBuildsIndex(db: DbState, table: string, script: string, n: nat, k: int)
    requires 0 <= k < n
    ensures |Plan(table, script, n)| == 3 * n + 7
    ensures Replay(db, Plan(table, script, n)[..7 + 3 * k]) == DbState(true, {IndexName(table)})
  {
    var plan := Plan(table, script, n);
    var m := 7 + 3 * k;
    PlanLength(table, script, n);
    PlanAt(table, script, n, m - 1);
    assert (m - 1 - 5) % 3 == 1;
    PlanStates(db, table, script, n, m - 1);
    assert plan[..m] == plan[..m - 1] + [plan[m - 1]];
    ReplaySnoc(db, plan[..m - 1], plan[m - 1]);
  }

  // ---------------------------------------------------------------------
  // Properties of a whole run

  /** A run issues a prefix of its plan in order and stops at the first
      exception; every step before a failing one completed; a run that
      failed never completed the cleanup. */
  lemma RunFollowsPlan(srv: Server, table: string, script: string, times: int)
    ensures var p := Run(srv, table, script, times);
      var start := Session(srv.initial, []);
      var plan := Plan(table, script, TrialCount(times));
      && FollowsPlan(srv, start, p, plan)
      && (p.result.Failure? ==> Applied(start, p) < |plan|)
  {
    var start := Session(srv.initial, []);
    var n := TrialCount(times);
    var pro := Prologue(table, script);
    var rep := Repeat(TrialSteps(table, IndexName(table)), n);
    var epi := Epilogue(table);
    assert Plan(table, script, n) == pro + rep + epi == pro + (rep + epi);
    var prepared := IssueAll(srv, start, pro);
    IssueAllFollows(srv, start, pro);
    if prepared.result.Failure? {
      HaltFollows<(), Report>(srv, start, prepared, pro, rep + epi);
      return;
    }
    var trial := TrialOn(srv, table, IndexName(table));
    var trials := Trials(trial, prepared.session, n, Samples([], []));
    forall s' ensures FollowsPlan(srv, s', trial(s'), TrialSteps(table, IndexName(table))) {
      TrialFollows(srv, s', table, IndexName(table));
    }
    TrialsFollow(srv, trial, TrialSteps(table, IndexName(table)), prepared.session, n, Samples([], []));
    FollowsThen(srv, start, prepared, pro, trials, rep);
    if trials.result.Failure? {
      HaltFollows<Samples, Report>(srv, start, trials, pro + rep, epi);
      return;
    }
    FinishFollows(srv, trials.session, table, trials.result.value);
    FollowsThen(srv, start, trials, pro + rep, Finish(srv, trials.session, table, trials.result.value), epi);
  }

  /** A raised exception that is not a failing statement is an unusable
      EXPLAIN ANALYZE reply, reported right after that statement: the reply
      completed and `get_exec_time` raised that very error on its rows. */
  ghost predicate RaisedAtQuery<T>(srv: Server, p: Progress<T>, table: string) {
    p.result.Failure? && !p.result.error.StepFailed? ==>
      && p.result.error.QueryFailed?
      && |p.session.trace| > 0
      && p.session.trace[|p.session.trace| - 1] == Sql(ExplainJoin(table))
      && srv.reply(|p.session.trace| - 1).Completed?
      && GetExecTime(srv.reply(|p.session.trace| - 1).rows) == Failure(p.result.error.error)
  }

  /** A trial raises a non-step exception only when the EXPLAIN ANALYZE
      reply has no usable execution time, after all three statements. */
  lemma TrialErrorSite(srv: Server, s: Session, table: string, index: string)
    ensures RaisedAtQuery(srv, Trial(srv, s, table, index), table)
  {
    var dropped := Issue(srv, s, Sql(DropIndex(index)));
    var created := Issue(srv, dropped.session, Sql(CreateIndex(index, table)));
    var explained := Issue(srv, created.session, Sql(ExplainJoin(table)));
    assert |explained.session.trace| - 1 == |created.session.trace|;
  }

  /** So does the loop. */
  lemma {:induction false} TrialsErrorSite(srv: Server, trial: Session -> Progress<TrialResult>, table: string,
                                           s: Session, n: nat, acc: Samples)
    requires forall s' :: RaisedAtQuery(srv, trial(s'), table)
    ensures RaisedAtQuery(srv, Trials(trial, s, n, acc), table)
    decreases n
  {
    if n > 0 {
      var t := trial(s);
      assert RaisedAtQuery(srv, t, table);
      if t.result.Success? {
        TrialsErrorSite(srv, trial, table, t.session, n - 1, AddTrial(acc, t.result.value));
      }
    }
  }

  /** After the loop, a non-step exception is raised right after the size
      query, which completed: no size row, no column in its first row, or
      (with a usable row) no samples to average. */
  lemma FinishErrorSite(srv: Server, s: Session, table: string, samples: Samples)
    ensures var p := Finish(srv, s, table, samples);
      var reply := srv.reply(|s.trace|);
      p.result.Failure? && !p.result.error.StepFailed? ==>
        && p.result.error in {NoSizeRow, NoSizeColumn, EmptySamples}
        && p.session.trace == s.trace + [Sql(RelationSize(table))]
        && reply.Completed?
        && (p.result.error == NoSizeRow ==> reply.rows == [])
        && (p.result.error == NoSizeColumn ==> reply.rows != [] && reply.rows[0] == [])
        && (p.result.error == EmptySamples ==> reply.rows != [] && reply.rows[0] != [] && samples.createMs == [])
  {
  }

  /** Every exception of a run surfaces where it arises: a failing statement
      is the last one issued; an unparsable plan is reported right after its
      EXPLAIN ANALYZE, with `get_exec_time`'s own error on that reply's rows;
      a bad size row is reported right after the size query, and says what
      is wrong with that reply's rows; and an empty sample list (only with
      `times` below 1) is reported after a usable size row. */
  lemma RunErrorSite(srv: Server, table: string, script: string, times: int)
    ensures var p := Run(srv, table, script, times);
      var i := |p.session.trace| - 1;
      p.result.Failure? && !p.result.error.StepFailed? ==>
        && i >= 0
        && srv.reply(i).Completed?
        && (|| (&& p.result.error.QueryFailed?
                && p.session.trace[i] == Sql(ExplainJoin(table))
                && GetExecTime(srv.reply(i).rows) == Failure(p.result.error.error))
            || (&& p.result.error in {NoSizeRow, NoSizeColumn, EmptySamples}
                && p.session.trace[i] == Sql(RelationSize(table))
                && i == 5 + 3 * TrialCount(times)))
        && (p.result.error == NoSizeRow ==> srv.reply(i).rows == [])
        && (p.result.error == NoSizeColumn ==> srv.reply(i).rows != [] && srv.reply(i).rows[0] == [])
        && (p.result.error == EmptySamples ==> srv.reply(i).rows != [] && srv.reply(i).rows[0] != [] && times <= 0)
  {
    var start := Session(srv.initial, []);
    var prepared := IssueAll(srv, start, Prologue(table, script));
    IssueAllRaisesOnlyStepFailures(srv, start, Prologue(table, script));
    if prepared.result.Success? {
      IssueAllTrace(srv, start, Prologue(table, script));
      var n := TrialCount(times);
      var trials := Trials(TrialOn(srv, table, IndexName(table)), prepared.session, n, Samples([], []));
      LoopErrorSite(srv, table, prepared.session, n);
      if trials.result.Success? {
        LoopCount(srv, table, prepared.session, n);
        FinishErrorSite(srv, trials.session, table, trials.result.value);
      }
    }
  }

  /** A successful run got through the preparation and the whole loop,
      whose samples come from the loop's replies, and then finished. */
  lemma RunStages(srv: Server, table: string, script: string, times: int)
    requires Run(srv, table, script, times).result.Success?
    ensures var prepared := IssueAll(srv, Session(srv.initial, []), Prologue(table, script));
      var trials := Trials(TrialOn(srv, table, IndexName(table)), prepared.session, TrialCount(times), Samples([], []));
      && prepared.result.Success?
      && trials.result.Success?
      && |trials.session.trace| == 5 + 3 * TrialCount(times)
      && Run(srv, table, script, times) == Finish(srv, trials.session, table, trials.result.value)
      && |trials.result.value.createMs| == |trials.result.value.selectMs| == TrialCount(times)
  {
    var start := Session(srv.initial, []);
    var n := TrialCount(times);
    var prepared := IssueAll(srv, start, Prologue(table, script));
    IssueAllTrace(srv, start, Prologue(table, script));
    LoopCount(srv, table, prepared.session, n);
  }

  /** The samples of a successful run are read from the loop's replies. */
  lemma RunReadings(srv: Server, table: string, script: string, times: int)
    requires Run(srv, table, script, times).result.Success?
    ensures var prepared := IssueAll(srv, Session(srv.initial, []), Prologue(table, script));
      var trials := Trials(TrialOn(srv, table, IndexName(table)), prepared.session, TrialCount(times), Samples([], []));
      SamplesFrom(BuildTimes(srv), PlanTimes(srv), 5, Samples([], []), trials.result.value, TrialCount(times))
  {
    var start := Session(srv.initial, []);
    var prepared := IssueAll(srv, start, Prologue(table, script));
    IssueAllTrace(srv, start, Prologue(table, script));
    var trial := TrialOn(srv, table, IndexName(table));
    TrialOnMeasured(srv, table);
    TrialsSamples(BuildTimes(srv), PlanTimes(srv), trial, prepared.session, TrialCount(times), Samples([], []));
  }

  /** A successful run issued the whole plan, every reply completed, at
      least one trial ran, and the database is left with neither the table
      nor the index. */
  lemma RunSucceeds(srv: Server, table: string, script: string, times: int)
    ensures var p := Run(srv, table, script, times);
      p.result.Success? ==>
        && times >= 1
        && p.session.trace == Plan(table, script, times)
        && (forall k :: 0 <= k < |p.session.trace| ==> srv.reply(k).Completed?)
        && p.session.db == DbState(false, {})
  {
    var p := Run(srv, table, script, times);
    if p.result.Success? {
      var n := TrialCount(times);
      var plan := Plan(table, script, n);
      RunStages(srv, table, script, times);
      var prepared := IssueAll(srv, Session(srv.initial, []), Prologue(table, script));
      var trials := Trials(TrialOn(srv, table, IndexName(table)), prepared.session, n, Samples([], []));
      FinishReport(srv, trials.session, table, trials.result.value);
      RunFollowsPlan(srv, table, script, times);
      assert p.session.trace == plan[..|plan|] == plan;
      PlanStates(srv.initial, table, script, n, |plan|);
    }
  }

  /** Every reply a run with `times` trials receives is usable: the five
      preparation steps complete, each trial's replies are usable, the size
      query completes with a first column in its first row, and the cleanup
      completes; and there is at least one trial to average over. */
  predicate RunUsable(srv: Server, times: int) {
    && times >= 1
    && (forall k :: 0 <= k < 5 ==> srv.reply(k).Completed?)
    && (forall k :: 0 <= k < times ==> TrialUsable(srv, 5 + 3 * k))
    && srv.reply(5 + 3 * times).Completed?
    && srv.reply(5 + 3 * times).rows != [] && srv.reply(5 + 3 * times).rows[0] != []
    && srv.reply(6 + 3 * times).Completed?
  }

  /** The run's loop succeeds only when the replies of each of its trials
      are usable. */
  lemma LoopSucceedsOnlyIfUsable(srv: Server, table: string, s: Session, n: nat)
    ensures Trials(TrialOn(srv, table, IndexName(table)), s, n, Samples([], [])).result.Success?
            ==> AllUsable(UsableTrials(srv), |s.trace|, n)
  {
    var trial := TrialOn(srv, table, IndexName(table));
    assert SucceedsOn(trial, UsableTrials(srv)) by {
      TrialOnSucceeds(srv, table);
    }
    TrialsSucceedIff(UsableTrials(srv), trial, s, n, Samples([], []));
  }

  /** The run's loop succeeds when the replies of each of its trials are
      usable. */
  lemma LoopSucceedsIfUsable(srv: Server, table: string, s: Session, n: nat)
    ensures AllUsable(UsableTrials(srv), |s.trace|, n)
            ==> Trials(TrialOn(srv, table, IndexName(table)), s, n, Samples([], [])).result.Success?
  {
    var trial := TrialOn(srv, table, IndexName(table));
    assert SucceedsOn(trial, UsableTrials(srv)) by {
      TrialOnSucceeds(srv, table);
    }
    TrialsSucceedIff(UsableTrials(srv), trial, s, n, Samples([], []));
  }

  /** A completed loop of the run issued three steps and collected one
      sample per list for each of its trials. */
  lemma LoopCount(srv: Server, table: string, s: Session, n: nat)
    requires Trials(TrialOn(srv, table, IndexName(table)), s, n, Samples([], [])).result.Success?
    ensures var trials := Trials(TrialOn(srv, table, IndexName(table)), s, n, Samples([], []));
      && |trials.session.trace| == |s.trace| + 3 * n
      && |trials.result.value.createMs| == |trials.result.value.selectMs| == n
  {
    TrialOnSteps(srv, table);
    TrialsCount(TrialOn(srv, table, IndexName(table)), s, n, Samples([], []));
  }

  /** The run's loop raises a non-step exception only on an unusable
      EXPLAIN ANALYZE reply. */
  lemma LoopErrorSite(srv: Server, table: string, s: Session, n: nat)
    ensures RaisedAtQuery(srv, Trials(TrialOn(srv, table, IndexName(table)), s, n, Samples([], [])), table)
  {
    TrialOnErrorSite(srv, table);
    TrialsErrorSite(srv, TrialOn(srv, table, IndexName(table)), table, s, n, Samples([], []));
  }

  /** The last stage of a run whose preparation and loop went through
      succeeds exactly when all of the run's replies are usable. */
  lemma FinishUsableIff(srv: Server, table: string, times: int, s: Session, samples: Samples)
    requires |s.trace| == 5 + 3 * TrialCount(times) && |samples.createMs| == TrialCount(times)
    requires forall k :: 0 <= k < 5 ==> srv.reply(k).Completed?
    requires AllUsable(UsableTrials(srv), 5, TrialCount(times))
    ensures Finish(srv, s, table, samples).result.Success? <==> RunUsable(srv, times)
  {
    UsableTrialsIff(srv, 5, TrialCount(times));
    FinishSucceedsIff(srv, s, table, samples);
  }

  /** A run succeeds exactly when every reply it receives is usable. */
  lemma RunSucceedsIff(srv: Server, table: string, script: string, times: int)
    ensures Run(srv, table, script, times).result.Success? <==> RunUsable(srv, times)
  {
    var start := Session(srv.initial, []);
    var n := TrialCount(times);
    var prepared := IssueAll(srv, start, Prologue(table, script));
    IssueAllSucceedsIff(srv, start, Prologue(table, script));
    if prepared.result.Failure? {
      return;
    }
    IssueAllTrace(srv, start, Prologue(table, script));
    var trials := Trials(TrialOn(srv, table, IndexName(table)), prepared.session, n, Samples([], []));
    LoopSucceedsOnlyIfUsable(srv, table, prepared.session, n);
    LoopSucceedsIfUsable(srv, table, prepared.session, n);
    if trials.result.Failure? {
      return;
    }
    LoopCount(srv, table, prepared.session, n);
    assert Run(srv, table, script, times) == Finish(srv, trials.session, table, trials.result.value);
    FinishUsableIff(srv, table, times, trials.session, trials.result.value);
  }

  /** A run whose replies are all usable succeeds, issues its whole plan and
      ends by dropping the table, leaving neither table nor index. */
  lemma RunSucceedsWhen(srv: Server, table: string, script: string, times: int)
    requires RunUsable(srv, times)
    ensures var p := Run(srv, table, script, times);
      && p.result.Success?
      && p.session.trace == Plan(table, script, times)
      && p.session.trace[|p.session.trace| - 1] == Sql(DropTable(table))
      && p.session.db == DbState(false, {})
  {
    RunSucceedsIff(srv, table, script, times);
    RunSucceeds(srv, table, script, times);
    PlanLength(table, script, times);
    PlanAt(table, script, times, 3 * times + 6);
  }

  /** What a successful run reports: `times` samples per list, each read
      from the reply it comes from (trial k's CREATE INDEX is step 6 + 3k and
      its EXPLAIN ANALYZE step 7 + 3k). */
  lemma RunSamples(srv: Server, table: string, script: string, times: int)
    ensures var r := Run(srv, table, script, times).result;
      r.Success? ==>
        && times >= 1
        && |r.value.createMs| == times && |r.value.selectMs| == times
        && (forall k :: 0 <= k < times ==> BuildTime(srv.reply(6 + 3 * k)) == Some(r.value.createMs[k]))
        && (forall k :: 0 <= k < times ==> PlanTime(srv.reply(7 + 3 * k)) == Some(r.value.selectMs[k]))
  {
    var r := Run(srv, table, script, times).result;
    if r.Success? {
      var n := TrialCount(times);
      RunStages(srv, table, script, times);
      RunReadings(srv, table, script, times);
      var prepared := IssueAll(srv, Session(srv.initial, []), Prologue(table, script));
      var trials := Trials(TrialOn(srv, table, IndexName(table)), prepared.session, n, Samples([], []));
      var samples := trials.result.value;
      FinishReport(srv, trials.session, table, samples);
      assert r.value.createMs == samples.createMs;
      assert r.value.selectMs == samples.selectMs;
      forall k | 0 <= k < n
        ensures BuildTime(srv.reply(6 + 3 * k)) == Some(samples.createMs[k])
        ensures PlanTime(srv.reply(7 + 3 * k)) == Some(samples.selectMs[k])
      {
        assert 5 + 3 * k + 1 == 6 + 3 * k && 5 + 3 * k + 2 == 7 + 3 * k;
        assert BuildTimes(srv)(6 + 3 * k) == Some(samples.createMs[k]);
        assert PlanTimes(srv)(7 + 3 * k) == Some(samples.selectMs[k]);
      }
    }
  }

  /** The size a successful run reports is the first column of the first
      row the size query returned. */
  lemma RunIndexSize(srv: Server, table: string, script: string, times: int)
    ensures var r := Run(srv, table, script, times).result;
      r.Success? ==>
        && times >= 1
        && srv.reply(5 + 3 * times).Completed?
        && srv.reply(5 + 3 * times).rows != [] && srv.reply(5 + 3 * times).rows[0] != []
        && r.value.indexSize == srv.reply(5 + 3 * times).rows[0][0]
  {
    var p := Run(srv, table, script, times);
    if p.result.Success? {
      var n := TrialCount(times);
      RunStages(srv, table, script, times);
      var prepared := IssueAll(srv, Session(srv.initial, []), Prologue(table, script));
      var trials := Trials(TrialOn(srv, table, IndexName(table)), prepared.session, n, Samples([], []));
      var finished := Finish(srv, trials.session, table, trials.result.value);
      assert p == finished;
      FinishReport(srv, trials.session, table, trials.result.value);
      assert n == times && |trials.session.trace| == 5 + 3 * times;
    }
  }

  /** A failed run issued a prefix of its plan and never completed the
      cleanup: once the old table has been dropped at most the benchmark's
      index exists, and once the import has completed the table is left
      behind. */
  lemma RunFails(srv: Server, table: string, script: string, times: int)
    requires Run(srv, table, script, times).result.Failure?
    ensures var p := Run(srv, table, script, times);
      var plan := Plan(table, script, TrialCount(times));
      && |p.session.trace| <= |plan|
      && p.session.trace == plan[..|p.session.trace|]
      && (|p.session.trace| >= 3 ==> p.session.db.indexes <= {IndexName(table)})
      && (|p.session.trace| > 3 ==> p.session.db.tablePresent)
  {
    var start := Session(srv.initial, []);
    var p := Run(srv, table, script, times);
    RunFollowsPlan(srv, table, script, times);
    PlanStates(srv.initial, table, script, TrialCount(times), Applied(start, p));
  }

  /** With `times` zero or negative the loop body never runs, so the
      statistics raise on an empty sample list right after the size query:
      the run fails without ever dropping the table, and when the
      preparation and the size query went through, the table stays. */
  lemma RunNonPositiveTimes(srv: Server, table: string, script: string, times: int)
    requires times <= 0
    ensures var p := Run(srv, table, script, times);
      && p.result.Failure?
      && |p.session.trace| <= 6
      && ((forall k :: 0 <= k < 6 ==> srv.reply(k).Completed?)
          && srv.reply(5).rows != [] && srv.reply(5).rows[0] != []
          ==> p.result == Failure(EmptySamples) && p.session.db.tablePresent)
  {
    var start := Session(srv.initial, []);
    var p := Run(srv, table, script, times);
    var prepared := IssueAll(srv, start, Prologue(table, script));
    IssueAllFollows(srv, start, Prologue(table, script));
    IssueAllRaisesOnlyStepFailures(srv, start, Prologue(table, script));
    if prepared.result.Success? {
      assert |prepared.session.trace| == 5;
      assert Trials(TrialOn(srv, table, IndexName(table)), prepared.session, 0, Samples([], []))
        == Progress(prepared.session, Success(Samples([], [])));
      assert p == Finish(srv, prepared.session, table, Samples([], []));
    }
    if p.result.Success? {
      RunSucceeds(srv, table, script, times);
    }
    if (forall k :: 0 <= k < 6 ==> srv.reply(k).Completed?) && srv.reply(5).rows != [] && srv.reply(5).rows[0] != [] {
      IssueAllSucceedsIff(srv, start, Prologue(table, script));
      RunFails(srv, table, script, times);
    }
  }

  /** When everything up to the first DROP INDEX completes and the first
      CREATE INDEX fails, that failure is what the run reports, nothing
      after it is issued, and the freshly imported table is left in the
      database. */
  lemma FailedBuildLeavesTable(srv: Server, table: string, script: string, times: int)
    requires times >= 1
    requires forall k :: 0 <= k < 6 ==> srv.reply(k).Completed?
    requires srv.reply(6).Failed?
    ensures var p := Run(srv, table, script, times);
      && p.result == Failure(StepFailed(Sql(CreateIndex(IndexName(table), table)), srv.reply(6).message))
      && p.session.trace == Plan(table, script, times)[..7]
      && p.session.db.tablePresent
  {
    var start := Session(srv.initial, []);
    var p := Run(srv, table, script, times);
    var plan := Plan(table, script, times);
    RunFollowsPlan(srv, table, script, times);
    RunErrorSite(srv, table, script, times);
    PlanLength(table, script, times);
    assert Applied(start, p) <= 6;
    forall i | 0 <= i < 6
      ensures plan[i] != Sql(ExplainJoin(table)) && plan[i] != Sql(RelationSize(table))
    {
      PlanAt(table, script, times, i);
    }
    assert FailedStep(p);
    assert |p.session.trace| == 7;
    PlanAt(table, script, times, 6);
    RunFails(srv, table, script, times);
  }
}
